=== FILE: README.md ===
# Heating consumption estimator — estimation core in Dafny

A model of the estimation pipeline of the weekly heating-cost estimator. Its
two front-end scripts, `estimador.js` and `script.js`, each carry their own
variant of the pipeline. Both variants are modelled side by side as pure
functions, selected by `Pattern.Variant`. The pipeline runs in this order:

1. **Row parsers** (`MarkerParser`, `HeaderParser`, over the shared row loop
   `GridScan`). They turn a grid of cell texts into power samples sorted by
   time. `estimador.js` reads the rows after a "VALORES CONTINUOS" marker row
   and needs `dd/mm/yyyy hh:mm` dates. `script.js` reads the rows after a
   "Fecha"/"Potencia" header row.
2. **Pattern analysis** (`Pattern`):
   - the stabilization search;
   - the initial-phase and maintenance-phase means;
   - the 24-hour profile, with banded interpolation of empty hours;
   - the fixed default template used below ten samples.
3. **Forecast calendar** (`Forecast`). The forecast week starts on the Monday
   on or after the reference day and carries seven fixed min/max pairs.
4. **Daily projection** (`Projection`). A temperature factor, a weekend factor
   and the maintenance substitution are applied to every hour; the day's kWh
   is rounded to a tenth.
5. **Tariff and cost** (`Tariff`, `Estimation`):
   - every hour is clamped to [300, 1800] W;
   - every hour goes to the valley, flat or peak band of the PVPC (the
     regulated Spanish electricity tariff);
   - the electricity tax and VAT are applied;
   - the basic estimate, the advanced estimate and the savings tips are built
     on top.

Supporting modules:
- `Text` models the JavaScript string operations the parsers use.
- `Calendar` models ECMAScript time values. `MakeDay`, `MakeTime`, `MakeDate`
  and `TimeClip` follow the abstract operations of the ECMAScript language
  specification (ECMA-262, section 21.4.1).
- `Numeric` holds sums, means, `Math.round` and the `toFixed(1)` rounding.
- `Samples` holds the sample type and the sort by timestamp.
- `Wrappers` holds `Option`.

Browser inputs become explicit parameters: the form settings, the band prices,
the reference time `now`, and (for `script.js`) the browser's text-to-date
parser.

## Model

| member | source | states |
|---|---|---|
| `Calendar.TimeClip` | estimador.js:225-234 | a constructed date is invalid (`NaN`) exactly when its time value lies outside ±8.64e15 ms; otherwise it is that value |
| `Calendar.HourOf` | estimador.js:713 | `getHours` of any time value lies in 0..23 |
| `Calendar.WeekdayOf` | estimador.js:453 | `getDay` of any time value lies in 0..6 |
| `Calendar.WeekdayAfterDays` | estimador.js:455 | moving a date on by `k` whole days moves its weekday on by `k` modulo 7 |
| `Calendar.HourOfMakeDate` | estimador.js:225-232 | a time value built from an hour, minute and second in range reports that hour through `getHours` |
| `Calendar.HourOfNewDate` | estimador.js:225-232 | a valid `new Date(y, mon, d, h, mi, s)` with fields in range has `getHours() == h` |
| `Text.TrimStart` | estimador.js:191 | the result is a suffix of the input that does not start with white space |
| `Text.TrimStartDropsSpace` | estimador.js:191 | only white space is removed from the front |
| `Text.TrimEnd` | estimador.js:191 | the result is a prefix of the input; everything removed is white space, and the result does not end in white space |
| `Text.Trim` | script.js:168-169 | the result neither starts nor ends with white space, and a text already in that form is returned unchanged |
| `Text.TrimIsSlice` | script.js:168-169 | `trim` removes only the leading and trailing white space: the result is the slice of the input after its leading white space, and everything around that slice is white space |
| `Text.IndexOfChar` | script.js:194 | `None` exactly when the character is absent; otherwise its first position |
| `Text.ReplaceFirst` | script.js:194 | only the first occurrence of the character is replaced; a text without it is unchanged |
| `Text.ReplaceFirstAfter` | estimador.js:237 | replacing the first `c` in `a + c + b`, where `a` has no `c`, gives `a + u + b` |
| `Text.Split` | estimador.js:212-213 | the pieces are at least one, none contains the separator, and joining them with the separator gives back the text |
| `Text.SplitCons` | estimador.js:212 | splitting `a + sep + b`, where `a` has no separator, gives `a` followed by the split of `b` |
| `Text.SplitTwo` | estimador.js:212 | two separator-free pieces joined by the separator split back into exactly those two |
| `Text.Reverse` | script.js:188 | `reverse` puts element `k` at position `n - 1 - k` |
| `Text.ToLower` | estimador.js:461-465 | `toLowerCase` maps every character by the letter mapping and keeps the length |
| `Text.DigitRun` | estimador.js:219 | the longest leading run of decimal digits: all of it are digits, and the next character is not |
| `Text.ParseInt` | estimador.js:219-228 | `parseInt` yields a number exactly when a digit follows the white space and the sign |
| `Text.DigitRunOfDigits` | estimador.js:226-228 | the digit run of a run of digits followed by a non-digit is exactly that run |
| `Text.ParseDecimal` | script.js:194 | the `parseFloat` stand-in yields a number exactly when the text has a numeric prefix |
| `Text.DecimalParse` | estimador.js:237 | `parseFloat("d.f")` for digit runs `d` and `f` is the decimal number they spell |
| `Numeric.Clamp` | estimador.js:990 | `max(lo, min(hi, x))` lies in `[lo, hi]`; it is `x` inside, `lo` below and `hi` above |
| `Numeric.MeanBounds` | estimador.js:705-707 | a mean of values in `[lo, hi]` lies in `[lo, hi]` |
| `Numeric.Round` | estimador.js:734 | `Math.round` lies within half a unit of its argument |
| `Numeric.RoundMonotone` | estimador.js:734 | `Math.round` never decreases as its argument grows |
| `Numeric.RoundTenth` | estimador.js:787 | `parseFloat(x.toFixed(1))` is a whole number of tenths, in `(x - 0.05, x + 0.05]` for non-negative `x` and in `[x - 0.05, x + 0.05)` for negative `x` (ties away from zero) |
| `Numeric.RoundTenthUnique` | estimador.js:787 | the rounded value is the only whole number of tenths in that window |
| `Numeric.RoundTenthMonotone` | estimador.js:787 | rounding to a tenth preserves order |
| `Samples.Insert` | estimador.js:254 | inserting into a sorted sequence keeps it sorted and adds exactly the new sample |
| `Samples.SortByTimestamp` | estimador.js:254 | the result is sorted by timestamp and is a permutation of the input |
| `GridScan.ScanConcat` | estimador.js:185-251 | scanning two blocks of rows in turn is scanning their concatenation |
| `GridScan.ScanDropRow` | estimador.js:185-251 | a row that opens nothing and yields nothing can be removed without changing the collected samples |
| `GridScan.ScanProvenance` | estimador.js:185-251 | every collected sample comes from a candidate row that yields it after an opening row |
| `GridScan.ScanComplete` | estimador.js:185-251 | every candidate row after an opening row contributes its sample |
| `GridScan.ScanMultiplicity` | estimador.js:240-244 | a sample is collected exactly once for every row that contributes it |
| `MarkerParser.DecimalPowerCell` | estimador.js:237 | a power cell `d,f` reads as the decimal number `d.f` |
| `MarkerParser.RowSample` | estimador.js:200-245 | a data row yields a sample exactly when it passes the label and shape screen and both the date and the power parse; the sample carries those two values |
| `MarkerParser.ParseConsumptionData` | estimador.js:179-257 | the result is sorted; it contains a sample exactly when some non-marker row after a marker row yields it, and once for each such row |
| `MarkerParser.ScanMembers` | estimador.js:185-251 | the loop collects a sample exactly when some row after a marker row yields it |
| `MarkerParser.RowsCounted` | estimador.js:240-254 | the loop collects each sample once per row after a marker row that yields it |
| `MarkerParser.ClassifyYields` | estimador.js:189-200 | a row is a data candidate yielding `x` exactly when it has at least two cells, is not a marker row and yields `x` |
| `MarkerParser.MarkerSeenBefore` | estimador.js:193-197 | collection is on at row `k` exactly when a marker row precedes it |
| `MarkerParser.DroppedRowLeavesOthers` | estimador.js:205-238 | a non-marker row that yields no sample can be removed without changing the result |
| `MarkerParser.WellFormedDate` | estimador.js:209-232 | a cell `dd/mm/yyyy hh:mm` has the date shape and yields `new Date(yyyy, mm - 1, dd, hh, mi, 0)` |
| `MarkerParser.WellFormedDateHour` | estimador.js:225-232 | a valid well-formed cell with hour below 24 and minute below 60 lands in the bucket of hour `hh` |
| `MarkerParser.WellFormedShape` | estimador.js:209 | a cell `dd/mm/yyyy hh:mm` of digit groups matches the date pattern |
| `MarkerParser.CellSplit` | estimador.js:212 | such a cell splits on its one space into the date part and the time part |
| `MarkerParser.DateSplit` | estimador.js:213 | the date part splits on "/" into day, month and year |
| `MarkerParser.TimeSplit` | estimador.js:218 | the time part splits on ":" into hour and minute |
| `MarkerParser.DateFieldsOfPieces` | estimador.js:226-228 | the date fields are read as the `parseInt` values of the three pieces |
| `MarkerParser.TimeFieldsOfPieces` | estimador.js:217-222 | with no seconds field, the time fields are hour, minute and zero seconds |
| `MarkerParser.DigitsParse` | estimador.js:219 | `parseInt` of a non-empty run of digits is its decimal value |
| `HeaderParser.JoinAvoids` | script.js:188 | joining "/"-free pieces with "-" gives a "/"-free text |
| `HeaderParser.DateInput` | script.js:187-191 | the text given to the date parser has no "/", and a date without "/" is passed on unchanged |
| `HeaderParser.DateInputReversesFields` | script.js:188 | `d/m/y` reaches the date parser as `y-m-d` |
| `HeaderParser.RowSample` | script.js:178-200 | a row after the header yields a sample exactly when both cells are non-empty, the first has no marker, and the date and the power both parse |
| `HeaderParser.ParseConsumptionData` | script.js:158-216 | the result is sorted; it contains a sample exactly when some non-header row after a header row yields it, and once for each such row |
| `HeaderParser.ScanMembers` | script.js:163-208 | the loop collects a sample exactly when some row after a header row yields it |
| `HeaderParser.RowsCounted` | script.js:196-212 | the loop collects each sample once per row after a header row that yields it |
| `HeaderParser.ClassifyYields` | script.js:167-178 | a row is a data candidate yielding `x` exactly when it has at least two cells, is not a header row and yields `x` |
| `HeaderParser.HeaderSeenBefore` | script.js:172-175 | collection is on at row `k` exactly when a header row precedes it |
| `HeaderParser.DroppedRowLeavesOthers` | script.js:178-202 | a non-header row that yields no sample can be removed without changing the result |
| `Pattern.FallbackIndex` | estimador.js:690 | `min(floor(n/2), n - 10)` lies in `0..n-10` |
| `Pattern.FirstStableFrom` | estimador.js:693-699 | the scan returns the first stable index at or after its start, or none when none is stable |
| `Pattern.StabilizationIndex` | estimador.js:690-699 | the index is at most `n - 6`; it is the first stable index from 10 on when one exists, and the fallback otherwise |
| `Pattern.FindStabilizationIndex` | script.js:573-582 | the loop computes that same index |
| `Pattern.InitialPhase` | estimador.js:702 | the initial phase is the first `max(10, idx)` samples |
| `Pattern.MaintenancePhase` | estimador.js:703 | the maintenance phase is the samples from `idx` on |
| `Pattern.MaintenanceOrDefault` | estimador.js:679 | `parseFloat(..) || 610`: a zero override becomes exactly 610, any other is kept |
| `Pattern.ScriptBucketDays` | script.js:595-604 | `script.js` counts, for hour `h`, the samples at hour `h` dated the 23rd, plus those dated the 24th when `h < 8` |
| `Pattern.Bucket` | estimador.js:712-714 | every bucket power comes from a sample of that hour, and every sample of that hour is in the bucket |
| `Pattern.BucketMultiplicity` | estimador.js:712-718 | each power occurs in the bucket as many times as there are samples of that hour carrying it |
| `Pattern.InterpolationVariants` | script.js:606-612 | the two variants interpolate empty hours alike, except at 22:00 and 23:00: 0.9 against 0.85 of the initial power |
| `Pattern.HourlyProfile` | estimador.js:710-736 | 24 entries, hour equal to position; the rounded bucket mean, or the rounded interpolation when the bucket is empty |
| `Pattern.DefaultProfile` | script.js:860-898 | 24 entries; template hours above 650 W kept; the others become the maintenance power (`estimador.js`) or `clamp(m * p / 610, 500, 700)` (`script.js`) |
| `Pattern.MaintenanceHoursOfTemplate` | estimador.js:1004-1031 | the template hours at or below 650 W are 10-17 and 21-23 |
| `Pattern.EstimadorDefaultShape` | estimador.js:1029-1038 | `estimador.js`'s default profile puts `m` in every maintenance hour and keeps at least 680 W elsewhere |
| `Pattern.ScriptDefaultAtNominal` | script.js:893 | at the nominal 610 W, `script.js`'s default profile is the template itself |
| `Pattern.AnalyzePattern` | estimador.js:673-744 | 24 hourly entries; below ten samples: 950 W initial power, 14 h, the override or 610 W, and the default profile; from ten samples on: the rounded means of the initial and maintenance phases split at the stabilization index, the rounded hours from the first sample to the stabilization sample, and the hourly profile built from the two unrounded phase means |
| `Pattern.MaintenancePhaseNonEmpty` | estimador.js:702-707 | with ten or more samples the maintenance phase has at least six samples, so its 600 W default is never used |
| `Pattern.PatternWithinSampleRange` | estimador.js:705-740 | when every power lies in `[lo, hi]`, the rounded phase powers and every sampled hour lie in `[round(lo), round(hi)]` |
| `Pattern.BucketWithin` | estimador.js:717-718 | the rounded mean of a non-empty bucket lies between the rounded bounds of the powers |
| `Pattern.SortedStabilizationNonNegative` | estimador.js:741 | over time-sorted samples the stabilization time is never negative |
| `Forecast.BaseTime` | estimador.js:447-450 | the reference time is the last sample's, or `now` without samples |
| `Forecast.MondayOffset` | estimador.js:453-455 | both offset formulas lie in 0..6 and land on weekday 1 (Monday) |
| `Forecast.MondayOffsetsAgree` | script.js:404 | `(1 + 7 - day) % 7` equals `estimador.js`'s offset on every weekday |
| `Forecast.MondayOffsetLeast` | estimador.js:452-455 | no smaller offset reaches a Monday |
| `Forecast.WeekStart` | estimador.js:447-455 | the week starts on a Monday, 0 to 6 whole days after the reference time |
| `Forecast.WeekTable` | estimador.js:474-561 | seven pairs; `estimador.js` uses the cold pairs for a default location and the mild pairs for any other; `script.js` always uses the cold pairs |
| `Forecast.SimulatedForecast` | estimador.js:467-570 | seven consecutive days from that Monday, day `i` with pair `i` of its table and `avgTemp = (min + max) / 2` |
| `Forecast.ForecastWeekdays` | estimador.js:467-469 | forecast day `i` falls on weekday `(i + 1) % 7`: Monday to Sunday |
| `Forecast.ForecastAverageBetween` | estimador.js:563-568 | every day's average lies strictly between its minimum and maximum |
| `Forecast.VariantsAgreeOnDefaultLocation` | script.js:396-468 | for the default location both scripts produce the same forecast |
| `Forecast.GenerateWeatherForecast` | estimador.js:417-443 | the location is trimmed; an empty one produces no forecast; otherwise exactly `estimador.js`'s simulated week for the trimmed location from the last sample's time (or now) |
| `Forecast.ForecastIgnoresSurroundingSpace` | estimador.js:421 | white space around the location does not change the forecast |
| `Forecast.GeneratedForecastWeek` | estimador.js:417-469 | a generated forecast runs Monday to Sunday, its days one day apart |
| `Projection.TempFactor` | estimador.js:758 | `1 + max(0, target - avg) * factor`: at least 1 for a non-negative factor, exactly 1 when `avg >= target` |
| `Projection.TempFactorMonotone` | estimador.js:758 | a higher target never lowers the temperature factor |
| `Projection.DayFactor` | estimador.js:761-762 | 0.85 from index 5 on, 1.0 before |
| `Projection.HourKwhs` | estimador.js:767-782 | each hour's kWh is the substituted power times both factors over 1000 |
| `Projection.DayKwhFactors` | estimador.js:767-782 | a day's kWh is the temperature factor times the day factor times the unadjusted kWh |
| `Projection.DayKwhMonotoneInTarget` | estimador.js:755-782 | with non-negative powers and factor, raising the target never lowers the unrounded daily kWh |
| `Projection.RoundedDayMonotoneInTarget` | estimador.js:787 | nor the rounded one |
| `Projection.DailyConsumption` | estimador.js:746-793 | one estimate per forecast day, in order, with its date, temperature difference, both factors, and the kWh: the unrounded sum rounded to a tenth, so a whole number of tenths within 0.05 of the sum |
| `Tariff.BandSets` | estimador.js:922-928 | an hour is valley, flat or peak exactly when it lies in {22, 23, 0..7}, {8, 9, 14..17} or {10..13, 18..21} |
| `Tariff.BandSizes` | script.js:782-789 | the day has 10 valley, 6 flat and 8 peak hours |
| `Tariff.WeekAverageWithin` | estimador.js:970 | the week's mean temperature lies within the days' range |
| `Tariff.RecalculateHour` | estimador.js:977-995 | the recalculated hour keeps its hour and lies in [300, 1800] W; it is the adjusted power when that is in range, else the nearer bound |
| `Tariff.RecalculateHourlyPattern` | estimador.js:964-997 | every hour is recalculated with the week's temperature factor, in order |
| `Tariff.AddToTotal` | estimador.js:922-928 | adding to one band adds that amount to the total |
| `Tariff.DayBandsConserve` | estimador.js:917-929 | one day's allocation loses nothing: the bands add up to the day's kWh |
| `Tariff.DayBandsScale` | estimador.js:913-930 | a day factor scales every band of the day's allocation |
| `Tariff.AllocateDay` | estimador.js:917-929 | the inner loop adds one day's weighted allocation onto the running totals |
| `Tariff.FactorSumWeek` | estimador.js:913-915 | the seven day factors add up to 6.7 |
| `Tariff.AllocateByDays` | estimador.js:913-930 | the seven-day loop gives every band 6.7 times one unweighted day |
| `Tariff.AllocateByWeightScales` | script.js:774-790 | the `5 * 1.0 + 2 * 0.85` weighting gives every band 6.7 times one unweighted day |
| `Tariff.AllocationsAgree` | script.js:774-790 | the two scripts' allocations agree band by band, and their total is 6.7 times the day's kWh |
| `Tariff.WeekTotalBounds` | estimador.js:990 | with 24 clamped hours the week's band total lies in [48.24, 289.44] kWh |
| `Tariff.CostOf` | estimador.js:933-941 | the energy cost is each band's kWh times its price, summed; the tax is 0.051127 of the energy cost, VAT is 0.21 of both, and the total is their sum |
| `Tariff.CostChain` | script.js:793-801 | the total is 1.27186367 times the energy cost, and is at least that cost, which is non-negative, for non-negative bands and prices |
| `Tariff.CostMonotone` | script.js:793-801 | at non-negative prices, more kWh in any band never lowers the energy cost or the total |
| `Estimation.ShareOut` | estimador.js:850-852 | the 37/31/32 % shares add back up to the week and stay non-negative for a non-negative week |
| `Estimation.SampleKwhs` | estimador.js:832 | every sample's power in kW |
| `Estimation.AvgHourlyAsWritten` | estimador.js:835 | the rate with its 0.6 fallback, as the script evaluates it: an infinity exactly when the span is zero and the total is not; otherwise the quotient, or 0.6 for a zero or `NaN` quotient |
| `Estimation.AvgHourly` | estimador.js:834-835 | the corrected rate: the 0.6 fallback when the span or the total is zero, else the measured rate |
| `Estimation.AvgHourlyAgrees` | estimador.js:830-835 | wherever `estimador.js` yields a number, the corrected rate is that number |
| `Estimation.SingleSampleRateInfinite` | estimador.js:831-835 | a single sample with positive power gives an infinite rate as written, and the 0.6 fallback once corrected |
| `Estimation.AvgHourlyNonNegative` | estimador.js:831-835 | for sorted samples with non-negative power the corrected rate is non-negative |
| `Estimation.BasicWeekly` | estimador.js:824-838 | no basic week without samples in `estimador.js`; otherwise 168 * 0.8 times the corrected rate `AvgHourly`; always 112.4 kWh in `script.js` |
| `Estimation.BasicWeeklyAsWritten` | estimador.js:824-838 | the basic week from the as-written rate: none without samples, infinite exactly for a zero span with a non-zero total, and otherwise equal to `BasicWeekly` |
| `Estimation.SingleSampleWeekInfinite` | estimador.js:831-838 | one positive sample gives an infinite week as written and 80.64 kWh once corrected |
| `Estimation.BasicEstimation` | script.js:706-732 | the basic week split by the fixed shares, which add back up to it, and priced by the cost chain |
| `Estimation.ScriptBasicBands` | script.js:708-722 | `script.js` always shows 112.4 kWh, split as 41.588 / 34.844 / 35.968 kWh |
| `Estimation.EstimadorBasicNonNegative` | estimador.js:830-838 | `estimador.js`'s corrected basic week is 134.4 times the corrected rate and non-negative for sorted, non-negative samples |
| `Estimation.Consumptions` | estimador.js:897 | the daily consumptions, in order |
| `Estimation.AdvancedEstimation` | estimador.js:889-941 | the week is the sum of the daily estimates; the bands are the 6.7-weighted recalculated profile within [48.24, 289.44] kWh; the cost follows the chain |
| `Estimation.WeeklyNearUnrounded` | estimador.js:897 | the week of rounded days is within 0.05 kWh per day of the unrounded week |
| `Estimation.CalculateWeeklyCost` | estimador.js:806-822 | the basic estimate when the forecast or the samples are missing; otherwise the advanced one, with its week, its bands (the allocation both scripts agree on), its cost and the [48.24, 289.44] kWh bound |
| `Estimation.OptimizationTips` | estimador.js:1041-1076 | 8 % for the temperature, 12 % for the schedule, 7 % for the weekend and 12 % for maintenance, in kWh and (the first three) in euros; the first three add up to 27 %; the combined saving is 22.95 % |
| `Estimation.TipsWithinInput` | script.js:900-935 | for non-negative input, the combined saving is non-negative, at most the input, and at least each single saving |

## Left out

- Local time is taken to be UTC. `getHours`, `getDate`, `getDay`, `setDate` and `new Date(y, m, d, ...)` read and build time values with no time-zone offset and no daylight-saving shift.
- `script.js` parses dates with `new Date(text)`. That parser is implementation-defined, so it is an abstract parameter `parseDate`: `None` for an invalid date, else a time value. Only the `split('/').reverse().join('-')` step before it is modelled.
- `parseFloat` is modelled by a decimal stand-in: white space, a sign, digits, and an optional fraction. It has no exponent, no `Infinity` and no hexadecimal form.
- `parseInt` is modelled in base ten only; a `0x` prefix is not recognised.
- `toLowerCase` lowers only the ASCII and Latin-1 capitals; the rest of Unicode case mapping is not modelled.
- Form inputs are plain real numbers. A `NaN` from an empty or non-numeric field is not modelled, so `parseFloat(..) || 610` treats only zero as falsy.
- Grid cells are texts only. Numeric or date cells from the workbook, their `String(..)` conversion, and `script.js`'s `typeof row[0] === 'string'` test, which holds for every text cell, are not modelled.
- Exact reals replace IEEE-754 doubles. Binary rounding of the decimal constants and of sums is not modelled, nor an `Infinity` or `NaN` produced by a sum.
- The `Math.random()` temperature draws in the forecast are dropped. The per-day `switch` (default location) or the fixed mild pattern (other locations) always decides the pair.
- The forecast's locale weekday name, and the `day` field copied from it, are not modelled.
- `Forecast.WeekStart`: the forecast dates are not passed through `TimeClip`, so a reference time within six days of the largest valid time value is not modelled.
- `Samples.SortByTimestamp`: the contract states order and permutation, not stability. `Array.prototype.sort` is stable, and so is the insertion sort, but the order of equal timestamps is not stated.
- `Estimation.BasicWeekly`: uses the corrected rate `AvgHourly`, so a zero-span, non-zero sample set gives 80.64 kWh where `estimador.js` gives an infinite week. The as-written week is `Estimation.BasicWeeklyAsWritten`; see "## Findings".
- `Calendar.CivilFromDays`: no lemma states that it inverts `DaysFromCivil`. It is used only for `getDate` in `script.js`'s day-23/24 filter.
- The samples' `date` field is not kept; the model keeps its `timestamp` only, which holds the same time value.
- The `try`/`catch` blocks of both parsers are not modelled; nothing in the modelled steps throws.
- DOM access, event wiring, charts, notifications and the HTML of the tips are not modelled. Neither are the `toFixed(2)` display strings or the loading indicators.
- The `setTimeout` delays are not modelled; they only postpone the computation.
- On an empty location `estimador.js` also resets the input to its default location; that field write is not modelled.
- Workbook reading (XLSX, FileReader) is not modelled; the model starts from a grid of cell texts.
- The chart filler values of the basic estimate (estimador.js:873-882, script.js:743) are not modelled.
- The unused locals of `analyzeConsumptionPattern` (estimador.js:686-687, script.js:569-570) are not modelled.

## Findings

| source | as written | input that shows it | evidently intended | confidence | as-written member | corrected member |
|---|---|---|---|---|---|---|
| estimador.js:831-835 | The 0.6 fallback after `totalConsumption / hoursMeasured` is taken only for `NaN` or 0. When all samples share one timestamp and the total is non-zero, the quotient is an infinity, which is truthy, so the basic week is infinite | a single sample with power 500 W | the 0.6 kWh/h fallback whenever there is no span to measure | not executed | `Estimation.AvgHourlyAsWritten` and `Estimation.BasicWeeklyAsWritten` (shown by `Estimation.SingleSampleRateInfinite` and `Estimation.SingleSampleWeekInfinite`) | `Estimation.AvgHourly` (proved non-negative by `Estimation.AvgHourlyNonNegative`, and equal to the as-written value elsewhere by `Estimation.AvgHourlyAgrees`), used by `Estimation.BasicWeekly` |

=== FILE: calendar.dfy ===
/** Time values as the ECMAScript `Date` object keeps them: whole
    milliseconds since 1970-01-01T00:00, with the local time zone taken to be
    UTC. `MakeDay`, `MakeTime`, `MakeDate` and `TimeClip` follow the
    abstract operations of the same names in the ECMAScript language
    specification; `HourOf`, `DateOf` and `WeekdayOf` stand for `getHours`,
    `getDate` and `getDay`. */
module Calendar {
  import opened Wrappers

  const MsPerSecond: int := 1000
  const MsPerMinute: int := 60000
  const MsPerHour: int := 3600000
  const MsPerDay: int := 86400000

  /** The largest magnitude a valid time value may have (ECMAScript `TimeClip`). */
  const MaxTimeValue: int := 8640000000000000

  /** Days from 1970-01-01 to the given proleptic Gregorian date; `d` may lie
      outside the month and then counts on from its first day. */
  function DaysFromCivil(y: int, m: int, d: int): int
    requires 1 <= m <= 12
  {
    var y1 := if m <= 2 then y - 1 else y;
    var era := y1 / 400;
    var yoe := y1 % 400;
    var mp := if m > 2 then m - 3 else m + 9;
    var doy := (153 * mp + 2) / 5 + d - 1;
    var doe := yoe * 365 + yoe / 4 - yoe / 100 + doy;
    era * 146097 + doe - 719468
  }

  /** The proleptic Gregorian (year, month, day) of a day number counted
      from 1970-01-01, by the same era/day-of-era decomposition. */
  function CivilFromDays(z: int): (int, int, int) {
    var z1 := z + 719468;
    var era := z1 / 146097;
    var doe := z1 % 146097;
    var yoe := (doe - doe / 1460 + doe / 36524 - doe / 146096) / 365;
    var doy := doe - (365 * yoe + yoe / 4 - yoe / 100);
    var mp := (5 * doy + 2) / 153;
    var d := doy - (153 * mp + 2) / 5 + 1;
    var m := if mp < 10 then mp + 3 else mp - 9;
    (yoe + era * 400 + (if m <= 2 then 1 else 0), m, d)
  }

  /** ECMAScript `MakeDay`: `month` is zero-based and may overflow into
      later or earlier years; `date` may overflow the month. */
  function MakeDay(year: int, month: int, date: int): int {
    DaysFromCivil(year + month / 12, month % 12 + 1, 1) + date - 1
  }

  /** ECMAScript `MakeTime`. */
  function MakeTime(hour: int, min: int, sec: int, ms: int): int {
    hour * MsPerHour + min * MsPerMinute + sec * MsPerSecond + ms
  }

  /** ECMAScript `MakeDate`. */
  function MakeDate(day: int, time: int): int {
    day * MsPerDay + time
  }

  /** ECMAScript `TimeClip`: `None` is the invalid date (`NaN` time value). */
  function TimeClip(t: int): (r: Option<int>)
    ensures r.Some? <==> -MaxTimeValue <= t <= MaxTimeValue
    ensures r.Some? ==> r.value == t
  {
    if t < -MaxTimeValue || t > MaxTimeValue then None else Some(t)
  }

  /** The `Date(year, month, ...)` constructor maps a year in 0..99 to 1900..1999. */
  function ConstructorYear(y: int): int {
    if 0 <= y <= 99 then 1900 + y else y
  }

  /** `new Date(y, mon, d, h, mi, s)` with integer fields. */
  function NewDate(y: int, mon: int, d: int, h: int, mi: int, s: int): Option<int> {
    TimeClip(MakeDate(MakeDay(ConstructorYear(y), mon, d), MakeTime(h, mi, s, 0)))
  }

  /** The day number of a time value (ECMAScript `Day`). */
  function DayOf(t: int): int {
    t / MsPerDay
  }

  /** `getHours`: the hour of the day of a time value. */
  function HourOf(t: int): (h: int)
    ensures 0 <= h < 24
  {
    (t / MsPerHour) % 24
  }

  /** `getDay`: 0 is Sunday, 1 Monday, ..., 6 Saturday; day 0 was a Thursday. */
  function WeekdayOf(t: int): (w: int)
    ensures 0 <= w < 7
  {
    (DayOf(t) + 4) % 7
  }

  /** `getDate`: the day of the month of a time value. */
  function DateOf(t: int): int {
    CivilFromDays(DayOf(t)).2
  }

  /** Moving a time value on by `k` whole days moves its weekday on by `k`. */
  lemma WeekdayAfterDays(t: int, k: int)
    ensures WeekdayOf(t + k * MsPerDay) == (WeekdayOf(t) + k) % 7
  {
    assert DayOf(t + k * MsPerDay) == DayOf(t) + k;
  }

  /** A time value built from an hour, minute and second within their usual
      ranges reports that hour back through `getHours`. */
  lemma HourOfMakeDate(day: int, h: int, mi: int, s: int)
    requires 0 <= h < 24 && 0 <= mi < 60 && 0 <= s < 60
    ensures HourOf(MakeDate(day, MakeTime(h, mi, s, 0))) == h
  {
    var rest := mi * MsPerMinute + s * MsPerSecond;
    assert 0 <= rest < MsPerHour;
    var t := MakeDate(day, MakeTime(h, mi, s, 0));
    assert t == (day * 24 + h) * MsPerHour + rest;
    assert t / MsPerHour == day * 24 + h;
  }

  /** A valid `new Date(y, mon, d, h, mi, s)` with the hour, minute and
      second in their usual ranges reports hour `h` through `getHours`. */
  lemma HourOfNewDate(y: int, mon: int, d: int, h: int, mi: int, s: int)
    requires 0 <= h < 24 && 0 <= mi < 60 && 0 <= s < 60
    ensures NewDate(y, mon, d, h, mi, s).Some? ==> HourOf(NewDate(y, mon, d, h, mi, s).value) == h
  {
    HourOfMakeDate(MakeDay(ConstructorYear(y), mon, d), h, mi, s);
  }
}

=== FILE: estimation.dfy ===
/** `calculateWeeklyCost` and what it dispatches to in both scripts: the
    basic estimate used when the forecast or the samples are missing, the
    advanced estimate built from the analysed pattern, the forecast and the
    time-of-use bands, and the savings shown by `generateOptimizationTips`. */
module Estimation {
  import opened Wrappers
  import opened Numeric
  import opened Samples
  import opened Pattern
  import opened Forecast
  import opened Projection
  import opened Tariff

  /** What an estimate shows: the week's kWh, its split over the bands, and
      the cost lines. */
  datatype Estimate = Estimate(weeklyKwh: real, bands: BandTotals, cost: Cost)

  /** The fixed split of the basic estimate: 37% valley, 31% flat, 32% peak. */
  const ValleyShare: real := 0.37
  const FlatShare: real := 0.31
  const PeakShare: real := 0.32

  /** The basic estimate's week spread over the bands by the fixed shares;
      the shares add up to one, so nothing is lost or invented. */
  function ShareOut(weekly: real): (r: BandTotals)
    ensures Total(r) == weekly
    ensures r.valley == ValleyShare * weekly && r.flat == FlatShare * weekly
            && r.peak == PeakShare * weekly
    ensures weekly >= 0.0 ==> r.valley >= 0.0 && r.flat >= 0.0 && r.peak >= 0.0
  {
    BandTotals(weekly * ValleyShare, weekly * FlatShare, weekly * PeakShare)
  }

  /** The hours between the first and the last sample. */
  function HoursMeasured(s: seq<Sample>): real
    requires |s| > 0
  {
    (s[|s| - 1].timestamp - s[0].timestamp) as real / 3600000.0
  }

  /** The samples' powers in kW, in order. */
  function SampleKwhs(s: seq<Sample>): (r: seq<real>)
    ensures |r| == |s|
    ensures forall i :: 0 <= i < |s| ==> r[i] == s[i].power * 0.001
  {
    seq(|s|, i requires 0 <= i < |s| => s[i].power * 0.001)
  }

  /** The fallback hourly consumption in kWh. */
  const DefaultHourlyKwh: real := 0.6

  /** `total / hours || 0.6` exactly as estimador.js evaluates it in IEEE
      arithmetic: `0 / 0` is `NaN` and a zero quotient is `0`, both falsy, so
      both give 0.6; a non-zero total over zero hours is an infinity, which
      is truthy and stays. `None` stands for that infinity. */
  function AvgHourlyAsWritten(total: real, hours: real): (r: Option<real>)
    ensures r.None? <==> hours == 0.0 && total != 0.0
    ensures total == 0.0 ==> r == Some(DefaultHourlyKwh)
    ensures hours != 0.0 && total != 0.0 ==> r == Some(total / hours)
  {
    if hours == 0.0 then (if total == 0.0 then Some(DefaultHourlyKwh) else None)
    else
      var q := total / hours;
      Some(if q == 0.0 then DefaultHourlyKwh else q)
  }

  /** The rate the fallback was meant to give: the measured rate when there
      is a span to measure, 0.6 kWh otherwise. */
  function AvgHourly(total: real, hours: real): (r: real)
    ensures hours == 0.0 || total == 0.0 ==> r == DefaultHourlyKwh
    ensures hours != 0.0 && total != 0.0 ==> r * hours == total
  {
    if hours == 0.0 || total == 0.0 then DefaultHourlyKwh else total / hours
  }

  /** The correction only changes the zero-span case: wherever estimador.js
      yields a number, the corrected rate is that number. */
  lemma AvgHourlyAgrees(total: real, hours: real)
    ensures AvgHourlyAsWritten(total, hours).Some?
            ==> AvgHourlyAsWritten(total, hours) == Some(AvgHourly(total, hours))
    ensures AvgHourlyAsWritten(total, hours).None? <==> hours == 0.0 && total != 0.0
  {
  }

  /** A single sample with positive power spans zero hours, so estimador.js's
      rate is infinite; the corrected rate is the 0.6 kWh fallback. */
  lemma SingleSampleRateInfinite(x: Sample)
    requires x.power > 0.0
    ensures AvgHourlyAsWritten(Sum(SampleKwhs([x])), HoursMeasured([x])).None?
    ensures AvgHourly(Sum(SampleKwhs([x])), HoursMeasured([x])) == DefaultHourlyKwh
  {
    assert SampleKwhs([x]) == [x.power * 0.001];
    assert Sum([x.power * 0.001]) == x.power * 0.001 + Sum([]);
  }

  /** For time-ordered samples with non-negative power the corrected rate is
      a non-negative number of kWh per hour. */
  lemma AvgHourlyNonNegative(s: seq<Sample>)
    requires |s| > 0 && Sorted(s)
    requires forall i :: 0 <= i < |s| ==> s[i].power >= 0.0
    ensures AvgHourly(Sum(SampleKwhs(s)), HoursMeasured(s)) >= 0.0
  {
    var k := SampleKwhs(s);
    forall i | 0 <= i < |k|
      ensures 0.0 <= k[i]
    {
    }
    SumNonNegative(k);
    SortedEnds(s);
    var total := Sum(k);
    var hours := HoursMeasured(s);
    if hours != 0.0 && total != 0.0 {
      QuotientNonNegative(total, hours);
    }
  }

  lemma SortedEnds(s: seq<Sample>)
    requires |s| > 0 && Sorted(s)
    ensures s[0].timestamp <= s[|s| - 1].timestamp
  {
  }

  lemma QuotientNonNegative(a: real, b: real)
    requires a >= 0.0 && b > 0.0
    ensures a / b >= 0.0
  {
  }

  /** Hours in a week, and the 80% allowance for maintenance mode. */
  const HoursPerWeek: real := 168.0
  const MaintenanceAllowance: real := 0.8

  /** script.js's basic estimate: a fixed week. */
  const ScriptBasicWeekly: real := 112.4

  /** The week the basic estimate assumes. estimador.js has nothing to
      estimate without samples; script.js always uses its fixed week. */
  function BasicWeekly(v: Variant, s: seq<Sample>): (r: Option<real>)
    ensures v == Script ==> r == Some(ScriptBasicWeekly)
    ensures v == Estimador ==> (r.None? <==> |s| == 0)
    ensures v == Estimador && |s| > 0 ==>
              r == Some(AvgHourly(Sum(SampleKwhs(s)), HoursMeasured(s)) * HoursPerWeek * MaintenanceAllowance)
  {
    match v
    case Script => Some(ScriptBasicWeekly)
    case Estimador =>
      if |s| == 0 then None
      else Some(AvgHourly(Sum(SampleKwhs(s)), HoursMeasured(s)) * HoursPerWeek * MaintenanceAllowance)
  }

  /** The week estimador.js's `calculateBasicEstimation` reaches as written:
      no week without samples, an infinite week when a non-zero total is
      spread over zero hours, a number otherwise. */
  datatype WeekAsWritten = NoSamples | InfiniteWeek | FiniteWeek(kwh: real)

  /** The basic week built from the as-written rate `AvgHourlyAsWritten`.
      Wherever it is a number it is the corrected `BasicWeekly`; it is
      infinite exactly for samples spanning zero hours with a non-zero
      total. */
  function BasicWeeklyAsWritten(v: Variant, s: seq<Sample>): (r: WeekAsWritten)
    ensures v == Script ==> r == FiniteWeek(ScriptBasicWeekly)
    ensures r.NoSamples? <==> v == Estimador && |s| == 0
    ensures r.InfiniteWeek? <==> v == Estimador && |s| > 0 && HoursMeasured(s) == 0.0
                                 && Sum(SampleKwhs(s)) != 0.0
    ensures r.FiniteWeek? ==> BasicWeekly(v, s) == Some(r.kwh)
  {
    match v
    case Script => FiniteWeek(ScriptBasicWeekly)
    case Estimador =>
      if |s| == 0 then NoSamples
      else
        match AvgHourlyAsWritten(Sum(SampleKwhs(s)), HoursMeasured(s))
        case None => InfiniteWeek
        case Some(rate) => FiniteWeek(rate * HoursPerWeek * MaintenanceAllowance)
  }

  /** One positive sample: estimador.js's basic week is infinite, while the
      corrected week is 0.6 * 168 * 0.8 = 80.64 kWh. */
  lemma SingleSampleWeekInfinite(x: Sample)
    requires x.power > 0.0
    ensures BasicWeeklyAsWritten(Estimador, [x]) == InfiniteWeek
    ensures BasicWeekly(Estimador, [x]) == Some(80.64)
  {
    SingleSampleRateInfinite(x);
  }

  /** `calculateBasicEstimation`: the basic week split by the fixed shares and
      priced; the bands add back up to the week. */
  function BasicEstimation(v: Variant, s: seq<Sample>, pr: Prices): (r: Option<Estimate>)
    ensures r.Some? <==> BasicWeekly(v, s).Some?
    ensures r.Some? ==> r.value.weeklyKwh == BasicWeekly(v, s).value
                        && Total(r.value.bands) == r.value.weeklyKwh
                        && r.value.bands == ShareOut(r.value.weeklyKwh)
                        && r.value.cost == CostOf(r.value.bands, pr)
  {
    match BasicWeekly(v, s)
    case None => None
    case Some(w) =>
      var bands := ShareOut(w);
      Some(Estimate(w, bands, CostOf(bands, pr)))
  }

  /** script.js's basic estimate always shows 112.4 kWh, 41.588 / 34.844 /
      35.968 kWh over the bands. */
  lemma ScriptBasicBands(s: seq<Sample>, pr: Prices)
    ensures BasicEstimation(Script, s, pr).Some?
    ensures var e := BasicEstimation(Script, s, pr).value;
            e.weeklyKwh == 112.4
            && e.bands == BandTotals(41.588, 34.844, 35.968)
  {
  }

  /** For time-ordered samples with non-negative power the basic estimate of
      estimador.js is a non-negative week, at 134.4 times the hourly rate. */
  lemma EstimadorBasicNonNegative(s: seq<Sample>, pr: Prices)
    requires |s| > 0 && Sorted(s)
    requires forall i :: 0 <= i < |s| ==> s[i].power >= 0.0
    ensures BasicEstimation(Estimador, s, pr).Some?
    ensures BasicEstimation(Estimador, s, pr).value.weeklyKwh
         == 134.4 * AvgHourly(Sum(SampleKwhs(s)), HoursMeasured(s))
    ensures BasicEstimation(Estimador, s, pr).value.weeklyKwh >= 0.0
  {
    AvgHourlyNonNegative(s);
  }

  /** The consumptions of the daily estimates, in order. */
  function Consumptions(daily: seq<DailyEstimate>): (r: seq<real>)
    ensures |r| == |daily|
    ensures forall i :: 0 <= i < |daily| ==> r[i] == daily[i].consumption
  {
    seq(|daily|, i requires 0 <= i < |daily| => daily[i].consumption)
  }

  /** `calculateAdvancedEstimation`: the pattern of the samples, one
      estimate per forecast day summed into the week, the recalculated
      hourly profile allocated to the bands (estimador.js by its seven-day
      loop, script.js by its 6.7 weighting), and the cost chain. Both
      allocations give the same bands, within 48.24 and 289.44 kWh. */
  method AdvancedEstimation(v: Variant, s: seq<Sample>, settings: Settings,
                            forecast: seq<ForecastDay>, pr: Prices) returns (r: Estimate)
    requires |forecast| > 0
    ensures var p := AnalyzePattern(v, s, settings.maintenancePower);
            r.weeklyKwh == Sum(Consumptions(DailyConsumption(p, settings, forecast)))
            && r.bands == AllocateByWeight(RecalculateHourlyPattern(p, settings, forecast))
    ensures 48.24 <= Total(r.bands) <= 289.44
    ensures r.cost == CostOf(r.bands, pr)
  {
    var p := AnalyzePattern(v, s, settings.maintenancePower);
    var daily := DailyConsumption(p, settings, forecast);
    var weekly := Sum(Consumptions(daily));
    var hourly := RecalculateHourlyPattern(p, settings, forecast);
    var bands: BandTotals;
    match v {
      case Estimador =>
        bands := AllocateByDays(hourly);
        AllocationsAgree(hourly, bands);
      case Script =>
        bands := AllocateByWeight(hourly);
    }
    WeekTotalBounds(hourly);
    r := Estimate(weekly, bands, CostOf(bands, pr));
  }

  /** The unrounded kWh of each forecast day. */
  function DayKwhs(p: ConsumptionPattern, settings: Settings, forecast: seq<ForecastDay>)
    : (r: seq<real>)
    ensures |r| == |forecast|
    ensures forall i :: 0 <= i < |forecast| ==> r[i] == DayKwh(p, settings, forecast[i].avgTemp, i)
  {
    seq(|forecast|, i requires 0 <= i < |forecast| => DayKwh(p, settings, forecast[i].avgTemp, i))
  }

  /** Rounding each day to a tenth moves the week by at most 0.05 kWh per
      day. */
  lemma WeeklyNearUnrounded(p: ConsumptionPattern, settings: Settings, forecast: seq<ForecastDay>)
    ensures var n := |forecast| as real;
            var gap := Sum(Consumptions(DailyConsumption(p, settings, forecast)))
                       - Sum(DayKwhs(p, settings, forecast));
            -0.05 * n <= gap <= 0.05 * n
  {
    var c := Consumptions(DailyConsumption(p, settings, forecast));
    var k := DayKwhs(p, settings, forecast);
    var d := seq(|forecast|, i requires 0 <= i < |forecast| => c[i] - k[i]);
    SumBounds(d, -0.05, 0.05);
    SumDifference(c, k, d);
  }

  lemma {:induction false} SumDifference(a: seq<real>, b: seq<real>, d: seq<real>)
    requires |a| == |b| == |d|
    requires forall i :: 0 <= i < |d| ==> d[i] == a[i] - b[i]
    ensures Sum(d) == Sum(a) - Sum(b)
    decreases |d|
  {
    if |d| > 0 {
      SumDifference(a[1..], b[1..], d[1..]);
    }
  }

  /** `calculateWeeklyCost`: the basic estimate when the forecast or the
      samples are missing, the advanced one otherwise. */
  method CalculateWeeklyCost(v: Variant, s: seq<Sample>, settings: Settings,
                             forecast: seq<ForecastDay>, pr: Prices) returns (r: Option<Estimate>)
    ensures |forecast| == 0 || |s| == 0 ==> r == BasicEstimation(v, s, pr)
    ensures |forecast| > 0 && |s| > 0 ==>
              r.Some? && 48.24 <= Total(r.value.bands) <= 289.44
              && r.value.bands
                 == AllocateByWeight(RecalculateHourlyPattern(AnalyzePattern(v, s, settings.maintenancePower),
                                                              settings, forecast))
              && r.value.cost == CostOf(r.value.bands, pr)
              && r.value.weeklyKwh
                 == Sum(Consumptions(DailyConsumption(AnalyzePattern(v, s, settings.maintenancePower),
                                                      settings, forecast)))
  {
    if |forecast| == 0 || |s| == 0 {
      r := BasicEstimation(v, s, pr);
    } else {
      var e := AdvancedEstimation(v, s, settings, forecast, pr);
      r := Some(e);
    }
  }

  /** The savings `generateOptimizationTips` shows, in kWh and euros. */
  datatype Tips = Tips(temperatureKwh: real, temperatureCost: real,
                       scheduleKwh: real, scheduleCost: real,
                       weekendKwh: real, weekendCost: real,
                       maintenanceKwh: real,
                       combinedKwh: real, combinedCost: real)

  /** 8% for one degree, 12% for the schedule, 7% for the weekend and 12%
      for maintenance; the combined figure is 85% of the first three. */
  function OptimizationTips(weeklyKwh: real, totalCost: real): (t: Tips)
    ensures t.combinedKwh == 0.2295 * weeklyKwh && t.combinedCost == 0.2295 * totalCost
    ensures t.temperatureKwh + t.scheduleKwh + t.weekendKwh == 0.27 * weeklyKwh
    ensures t.temperatureCost + t.scheduleCost + t.weekendCost == 0.27 * totalCost
    ensures t.maintenanceKwh == t.scheduleKwh
    ensures t.temperatureKwh == 0.08 * weeklyKwh && t.temperatureCost == 0.08 * totalCost
    ensures t.scheduleKwh == 0.12 * weeklyKwh && t.scheduleCost == 0.12 * totalCost
    ensures t.weekendKwh == 0.07 * weeklyKwh && t.weekendCost == 0.07 * totalCost
    ensures t.maintenanceKwh == 0.12 * weeklyKwh
  {
    var tk := weeklyKwh * 0.08;
    var tc := totalCost * 0.08;
    var sk := weeklyKwh * 0.12;
    var sc := totalCost * 0.12;
    var wk := weeklyKwh * 0.07;
    var wc := totalCost * 0.07;
    Tips(tk, tc, sk, sc, wk, wc, weeklyKwh * 0.12, (tk + sk + wk) * 0.85, (tc + sc + wc) * 0.85)
  }

  /** For a non-negative week the combined saving never exceeds what is
      consumed or paid, and every single saving is below the combined one. */
  lemma TipsWithinInput(weeklyKwh: real, totalCost: real)
    requires weeklyKwh >= 0.0 && totalCost >= 0.0
    ensures var t := OptimizationTips(weeklyKwh, totalCost);
            0.0 <= t.combinedKwh <= weeklyKwh && 0.0 <= t.combinedCost <= totalCost
            && t.temperatureKwh <= t.combinedKwh && t.scheduleKwh <= t.combinedKwh
            && t.weekendKwh <= t.combinedKwh
  {
  }
}

=== FILE: forecast.dfy ===
/** `generateSimulatedForecast` of both scripts: the forecast week starts on
    the Monday on or after the reference day and has seven fixed min/max
    temperature pairs (the random draws both scripts make are always overwritten
    by the per-day `switch`). */
module Forecast {
  import opened Wrappers
  import opened Text
  import opened Calendar
  import opened Samples
  import opened Pattern

  /** One forecast day: its time value, the minimum and maximum temperature
      in degrees Celsius, their mean, and the location it was made for. */
  datatype ForecastDay = ForecastDay(date: int, minTemp: int, maxTemp: int, avgTemp: real,
                                     location: string)

  /** The reference time: the last sample's time, or `now` without samples. */
  function BaseTime(s: seq<Sample>, now: int): (t: int)
    ensures |s| > 0 ==> t == s[|s| - 1].timestamp
    ensures |s| == 0 ==> t == now
  {
    if |s| > 0 then s[|s| - 1].timestamp else now
  }

  /** Days to add to a day of weekday `day` (0 Sunday .. 6 Saturday) to reach
      Monday: `day == 1 ? 0 : (8 - day) % 7` in estimador.js,
      `(1 + 7 - day) % 7` in script.js. */
  function MondayOffset(v: Variant, day: int): (r: int)
    requires 0 <= day < 7
    ensures 0 <= r <= 6
    ensures (day + r) % 7 == 1
  {
    match v
    case Estimador => if day == 1 then 0 else (8 - day) % 7
    case Script => (1 + 7 - day) % 7
  }

  /** The two offset formulas agree on every weekday. */
  lemma MondayOffsetsAgree(day: int)
    requires 0 <= day < 7
    ensures MondayOffset(Estimador, day) == MondayOffset(Script, day)
  {
  }

  /** The offset is the least number of days that reaches a Monday. */
  lemma MondayOffsetLeast(v: Variant, day: int, k: int)
    requires 0 <= day < 7 && 0 <= k < MondayOffset(v, day)
    ensures (day + k) % 7 != 1
  {
  }

  /** The time value of the first forecast day: the reference time moved on
      to the Monday on or after it, keeping the time of day. */
  function WeekStart(v: Variant, base: int): (t: int)
    ensures WeekdayOf(t) == 1
    ensures base <= t <= base + 6 * MsPerDay
    ensures (t - base) % MsPerDay == 0
  {
    var k := MondayOffset(v, WeekdayOf(base));
    WeekdayAfterDays(base, k);
    base + k * MsPerDay
  }

  /** The location test of estimador.js: the lower-cased location mentions
      San Martín de Valdeiglesias, Madrid or Spain. */
  predicate IsDefaultLocation(location: string) {
    var l := ToLower(location);
    Contains(l, "san martin") || Contains(l, "valdeiglesias") || Contains(l, "madrid")
    || Contains(l, "españa") || Contains(l, "spain")
  }

  /** The fixed (min, max) pairs for the default location, Monday first. */
  const ColdWeek: seq<(int, int)> := [(0, 8), (-1, 7), (1, 9), (2, 10), (1, 11), (4, 13), (5, 14)]

  /** The fixed (min, max) pairs for any other location, Monday first. */
  const MildWeek: seq<(int, int)> := [(8, 16), (7, 15), (9, 17), (10, 18), (9, 18), (12, 20), (13, 21)]

  /** The pairs a variant uses: script.js always uses the default location's. */
  function WeekTable(v: Variant, location: string): (r: seq<(int, int)>)
    ensures |r| == 7
    ensures v == Script ==> r == ColdWeek
    ensures v == Estimador && IsDefaultLocation(location) ==> r == ColdWeek
    ensures v == Estimador && !IsDefaultLocation(location) ==> r == MildWeek
  {
    if v == Estimador && !IsDefaultLocation(location) then MildWeek else ColdWeek
  }

  /** The forecast: seven consecutive days from the week's Monday, day `i`
      with the `i`-th pair of its table and the mean of the pair as average. */
  function SimulatedForecast(v: Variant, location: string, base: int): (r: seq<ForecastDay>)
    ensures |r| == 7
    ensures forall i :: 0 <= i < 7 ==>
              r[i].date == WeekStart(v, base) + i * MsPerDay
              && (r[i].minTemp, r[i].maxTemp) == WeekTable(v, location)[i]
              && r[i].avgTemp == (r[i].minTemp + r[i].maxTemp) as real / 2.0
              && r[i].location == location
  {
    var start := WeekStart(v, base);
    var table := WeekTable(v, location);
    seq(7, i requires 0 <= i < 7 =>
      ForecastDay(start + i * MsPerDay, table[i].0, table[i].1,
                  (table[i].0 + table[i].1) as real / 2.0, location))
  }

  /** Day `i` of the forecast falls on weekday `(i + 1) % 7`: Monday to Sunday. */
  lemma ForecastWeekdays(v: Variant, location: string, base: int, i: int)
    requires 0 <= i < 7
    ensures WeekdayOf(SimulatedForecast(v, location, base)[i].date) == (i + 1) % 7
  {
    var start := WeekStart(v, base);
    WeekdayAfterDays(start, i);
  }

  /** Every day's minimum lies below its maximum, so its average lies between them. */
  lemma ForecastAverageBetween(v: Variant, location: string, base: int, i: int)
    requires 0 <= i < 7
    ensures var d := SimulatedForecast(v, location, base)[i];
            d.minTemp as real < d.avgTemp < d.maxTemp as real
  {
    var t := WeekTable(v, location);
    assert t == ColdWeek || t == MildWeek;
  }

  /** For the default location both scripts produce the same forecast from
      the same reference time. */
  lemma VariantsAgreeOnDefaultLocation(location: string, base: int)
    requires IsDefaultLocation(location)
    ensures SimulatedForecast(Estimador, location, base) == SimulatedForecast(Script, location, base)
  {
    MondayOffsetsAgree(WeekdayOf(base));
    assert WeekStart(Estimador, base) == WeekStart(Script, base);
  }

  /** estimador.js's `generateWeatherForecast`: the location is trimmed, and
      an empty one produces no new forecast (`None`, the old one is kept). */
  function GenerateWeatherForecast(location: string, s: seq<Sample>, now: int)
    : (r: Option<seq<ForecastDay>>)
    ensures r.None? <==> Trim(location) == ""
    ensures r.Some? ==> |r.value| == 7 && forall i :: 0 <= i < 7 ==> r.value[i].location == Trim(location)
    ensures r.Some? ==> r.value == SimulatedForecast(Estimador, Trim(location), BaseTime(s, now))
  {
    var l := Trim(location);
    if l == "" then None else Some(SimulatedForecast(Estimador, l, BaseTime(s, now)))
  }

  /** White space around the location does not change the forecast. */
  lemma ForecastIgnoresSurroundingSpace(location: string, s: seq<Sample>, now: int)
    ensures GenerateWeatherForecast(Trim(location), s, now) == GenerateWeatherForecast(location, s, now)
  {
    var l := Trim(location);
    assert Trim(l) == l;
  }

  /** A generated forecast runs Monday to Sunday, its days one day apart. */
  lemma GeneratedForecastWeek(location: string, s: seq<Sample>, now: int, i: int)
    requires Trim(location) != "" && 0 <= i < 7
    ensures var f := GenerateWeatherForecast(location, s, now).value;
            WeekdayOf(f[i].date) == (i + 1) % 7 && f[i].date == f[0].date + i * MsPerDay
  {
    ForecastWeekdays(Estimador, Trim(location), BaseTime(s, now), i);
  }
}

=== FILE: gridscan.dfy ===
/** The row loop both parsers share: rows are visited in order, a
    section-opening row switches collection on for every later row, and each
    candidate row contributes the sample it yields, if any, once collection is
    on. The two layouts differ only in how they classify a row. */
module GridScan {
  import opened Wrappers
  import opened Samples

  /** What a parser does with one row of cells. */
  datatype RowAction =
    | Ignore                          // skipped whatever the state
    | OpenSection                     // the section marker or header: data follows
    | Candidate(sample: Option<Sample>)  // a data row, yielding at most one sample

  /** The samples collected from `grid`, in row order; `open` says whether an
      opening row has already been seen. */
  function Scan(grid: seq<seq<string>>, classify: seq<string> -> RowAction, open: bool): seq<Sample>
    decreases |grid|
  {
    if |grid| == 0 then []
    else
      match classify(grid[0])
      case Ignore => Scan(grid[1..], classify, open)
      case OpenSection => Scan(grid[1..], classify, true)
      case Candidate(o) => (if open then o.ToSeq() else []) + Scan(grid[1..], classify, open)
  }

  /** Whether collection is on after the rows of `grid`. */
  predicate OpenAfter(grid: seq<seq<string>>, classify: seq<string> -> RowAction, open: bool) {
    open || exists j | 0 <= j < |grid| :: classify(grid[j]).OpenSection?
  }

  /** Scanning two blocks of rows in turn is scanning their concatenation. */
  lemma {:induction false} ScanConcat(a: seq<seq<string>>, b: seq<seq<string>>,
                                      classify: seq<string> -> RowAction, open: bool)
    ensures Scan(a + b, classify, open)
         == Scan(a, classify, open) + Scan(b, classify, OpenAfter(a, classify, open))
    decreases |a|
  {
    if |a| == 0 {
      assert a + b == b;
    } else {
      assert (a + b)[0] == a[0];
      assert (a + b)[1..] == a[1..] + b;
      var open' := if classify(a[0]).OpenSection? then true else open;
      ScanConcat(a[1..], b, classify, open');
      OpenAfterCons(a, classify, open);
    }
  }

  /** Collection is on after a block exactly when it is on after the block's
      tail, started in the state its first row leaves. */
  lemma OpenAfterCons(a: seq<seq<string>>, classify: seq<string> -> RowAction, open: bool)
    requires |a| > 0
    ensures OpenAfter(a[1..], classify, if classify(a[0]).OpenSection? then true else open)
         == OpenAfter(a, classify, open)
  {
    var open' := if classify(a[0]).OpenSection? then true else open;
    if OpenAfter(a, classify, open) && !open' {
      var j :| 0 <= j < |a| && classify(a[j]).OpenSection?;
      assert j != 0;
      assert classify(a[1..][j - 1]).OpenSection?;
    }
    if OpenAfter(a[1..], classify, open') && !open {
      if !classify(a[0]).OpenSection? {
        var j :| 0 <= j < |a[1..]| && classify(a[1..][j]).OpenSection?;
        assert classify(a[j + 1]).OpenSection?;
      }
    }
  }

  /** A row that opens nothing and yields nothing can be taken out of the grid
      without changing what any other row contributes. */
  lemma ScanDropRow(a: seq<seq<string>>, row: seq<string>, b: seq<seq<string>>,
                    classify: seq<string> -> RowAction, open: bool)
    requires classify(row) == Ignore || classify(row) == Candidate(None)
    ensures Scan(a + [row] + b, classify, open) == Scan(a + b, classify, open)
  {
    var o := OpenAfter(a, classify, open);
    ScanConcat(a, [row] + b, classify, open);
    assert a + [row] + b == a + ([row] + b);
    assert ([row] + b)[1..] == b;
    assert Scan([row] + b, classify, o) == Scan(b, classify, o);
    ScanConcat(a, b, classify, open);
  }

  /** Every collected sample comes from a candidate row that yields it and
      that follows an opening row (or collection was already on). */
  lemma {:induction false} ScanProvenance(grid: seq<seq<string>>, classify: seq<string> -> RowAction,
                                          open: bool, x: Sample)
    requires x in Scan(grid, classify, open)
    ensures exists k :: 0 <= k < |grid| && classify(grid[k]) == Candidate(Some(x))
                        && (open || exists j :: 0 <= j < k && classify(grid[j]).OpenSection?)
    decreases |grid|
  {
    var rest := grid[1..];
    match classify(grid[0])
    case Ignore =>
      ScanProvenance(rest, classify, open, x);
      var k :| 0 <= k < |rest| && classify(rest[k]) == Candidate(Some(x))
               && (open || exists j :: 0 <= j < k && classify(rest[j]).OpenSection?);
      assert grid[k + 1] == rest[k];
      if !open {
        var j :| 0 <= j < k && classify(rest[j]).OpenSection?;
        assert classify(grid[j + 1]).OpenSection?;
      }
    case OpenSection =>
      ScanProvenance(rest, classify, true, x);
      var k :| 0 <= k < |rest| && classify(rest[k]) == Candidate(Some(x));
      assert grid[k + 1] == rest[k];
      assert classify(grid[0]).OpenSection?;
    case Candidate(o) =>
      if open && o.Some? && x == o.value {
        assert classify(grid[0]) == Candidate(Some(x));
      } else {
        assert x in Scan(rest, classify, open);
        ScanProvenance(rest, classify, open, x);
        var k :| 0 <= k < |rest| && classify(rest[k]) == Candidate(Some(x))
                 && (open || exists j :: 0 <= j < k && classify(rest[j]).OpenSection?);
        assert grid[k + 1] == rest[k];
        if !open {
          var j :| 0 <= j < k && classify(rest[j]).OpenSection?;
          assert classify(grid[j + 1]).OpenSection?;
        }
      }
  }

  /** Conversely, a candidate row after an opening row contributes its sample. */
  lemma {:induction false} ScanComplete(grid: seq<seq<string>>, classify: seq<string> -> RowAction,
                                        open: bool, j: int, k: int, x: Sample)
    requires 0 <= k < |grid| && classify(grid[k]) == Candidate(Some(x))
    requires open || (0 <= j < k && classify(grid[j]).OpenSection?)
    ensures x in Scan(grid, classify, open)
    decreases |grid|
  {
    var rest := grid[1..];
    if k == 0 {
      assert open;
    } else {
      assert rest[k - 1] == grid[k];
      match classify(grid[0])
      case Ignore =>
        if !open { assert j != 0; }
        ScanComplete(rest, classify, open, j - 1, k - 1, x);
      case OpenSection =>
        ScanComplete(rest, classify, true, j - 1, k - 1, x);
      case Candidate(o) =>
        if !open { assert j != 0; }
        ScanComplete(rest, classify, open, j - 1, k - 1, x);
    }
  }

  /** The rows from `k` on that contribute `x`: candidates yielding `x`
      while collection is on. */
  function Contributors(grid: seq<seq<string>>, classify: seq<string> -> RowAction, open: bool,
                        x: Sample, k: nat): set<int>
  {
    set i | k <= i < |grid| && classify(grid[i]) == Candidate(Some(x))
                            && OpenAfter(grid[..i], classify, open)
  }

  /** Nothing is merged or dropped: a sample is collected once for every row
      that contributes it. */
  lemma ScanMultiplicity(grid: seq<seq<string>>, classify: seq<string> -> RowAction, open: bool,
                         x: Sample)
    ensures multiset(Scan(grid, classify, open))[x] == |Contributors(grid, classify, open, x, 0)|
  {
    SuffixCount(grid, classify, open, x, 0);
    assert grid[0..] == grid;
    assert !OpenAfter(grid[..0], classify, false);
  }

  /** Whether collection is on after one more row. */
  lemma OpenAfterStep(grid: seq<seq<string>>, classify: seq<string> -> RowAction, open: bool, k: nat)
    requires k < |grid|
    ensures OpenAfter(grid[..k + 1], classify, open)
        == (OpenAfter(grid[..k], classify, open) || classify(grid[k]).OpenSection?)
  {
    if OpenAfter(grid[..k + 1], classify, open) && !open && !classify(grid[k]).OpenSection? {
      var j :| 0 <= j < k + 1 && classify(grid[..k + 1][j]).OpenSection?;
      assert j < k && grid[..k][j] == grid[..k + 1][j];
    }
    if OpenAfter(grid[..k], classify, open) && !open {
      var j :| 0 <= j < k && classify(grid[..k][j]).OpenSection?;
      assert grid[..k + 1][j] == grid[..k][j];
    }
    if classify(grid[k]).OpenSection? {
      assert grid[..k + 1][k] == grid[k];
    }
  }

  lemma {:induction false} SuffixCount(grid: seq<seq<string>>, classify: seq<string> -> RowAction,
                                       open: bool, x: Sample, k: nat)
    requires k <= |grid|
    ensures multiset(Scan(grid[k..], classify, OpenAfter(grid[..k], classify, open)))[x]
         == |Contributors(grid, classify, open, x, k)|
    decreases |grid| - k
  {
    var o := OpenAfter(grid[..k], classify, open);
    if k == |grid| {
      assert Contributors(grid, classify, open, x, k) == {};
    } else {
      OpenAfterStep(grid, classify, open, k);
      SuffixCount(grid, classify, open, x, k + 1);
      ScanStep(grid, classify, o, k);
      EmittedCount(classify(grid[k]), o, x);
      ContributorsStep(grid, classify, open, x, k);
    }
  }

  /** What one row adds to the scan while collection is `open`. */
  function Emitted(a: RowAction, open: bool): seq<Sample> {
    if open && a.Candidate? then a.sample.ToSeq() else []
  }

  /** A row adds one copy of `x` when it yields `x` with collection on, none otherwise. */
  lemma EmittedCount(a: RowAction, open: bool, x: Sample)
    ensures multiset(Emitted(a, open))[x] == if a == Candidate(Some(x)) && open then 1 else 0
  {
    if open && a.Candidate? && a.sample.Some? {
      assert Emitted(a, open) == [a.sample.value];
    }
  }

  /** Scanning from row `k` is that row's output followed by the scan of the
      rows after it. */
  lemma ScanStep(grid: seq<seq<string>>, classify: seq<string> -> RowAction, o: bool, k: nat)
    requires k < |grid|
    ensures Scan(grid[k..], classify, o)
         == Emitted(classify(grid[k]), o)
            + Scan(grid[k + 1..], classify, o || classify(grid[k]).OpenSection?)
  {
    assert grid[k..][0] == grid[k] && grid[k..][1..] == grid[k + 1..];
  }

  /** The contributors from row `k` on are `k` itself, when it contributes,
      and those from `k + 1` on, which do not include `k`. */
  lemma ContributorsStep(grid: seq<seq<string>>, classify: seq<string> -> RowAction, open: bool,
                         x: Sample, k: nat)
    requires k < |grid|
    ensures Contributors(grid, classify, open, x, k)
         == (if classify(grid[k]) == Candidate(Some(x)) && OpenAfter(grid[..k], classify, open)
             then {k} else {})
            + Contributors(grid, classify, open, x, k + 1)
    ensures k !in Contributors(grid, classify, open, x, k + 1)
  {
  }
}

=== FILE: header_parser.dfy ===
/** `parseConsumptionData` of script.js: the header layout. Data rows follow a
    row whose trimmed first two cells contain "Fecha" and "Potencia"; a date
    cell containing "/" has its "/"-separated fields reversed and joined with
    "-" before it is handed to the browser's `Date` parser; the power cell has its
    first "," turned into "." and is read with `parseFloat`. */
module HeaderParser {
  import opened Wrappers
  import opened Text
  import opened Samples
  import opened GridScan

  const Marker: string := "VALORES CONTINUOS"

  /** The column header row: "Fecha" in the first cell, "Potencia" in the second. */
  predicate IsHeaderRow(row: seq<string>) {
    |row| >= 2 && Contains(Trim(row[0]), "Fecha") && Contains(Trim(row[1]), "Potencia")
  }

  /** The text handed to `new Date`: `d/m/y` becomes `y-m-d`, anything
      without "/" goes unchanged. */
  function DateInput(dateStr: string): (r: string)
    ensures '/' !in r
    ensures '/' !in dateStr ==> r == dateStr
  {
    if '/' in dateStr then
      var parts := Reverse(Split(dateStr, '/'));
      JoinAvoids(parts, '-', '/');
      Join(parts, '-')
    else dateStr
  }

  /** Joining "/"-free pieces with another separator gives a "/"-free text. */
  lemma {:induction false} JoinAvoids(parts: seq<string>, sep: char, c: char)
    requires sep != c
    requires forall k :: 0 <= k < |parts| ==> c !in parts[k]
    ensures c !in Join(parts, sep)
    decreases |parts|
  {
    if |parts| > 1 {
      JoinAvoids(parts[1..], sep, c);
      assert parts[1..][0] == parts[1];
    }
  }

  /** A row past the header yields a sample exactly when both cells are
      present, the first does not contain the marker, the date parses and the
      power reads as a number. `parseDate` is the browser's `new Date(text)`:
      `None` for an invalid date, else its time value. */
  function RowSample(parseDate: string -> Option<int>, row: seq<string>): (r: Option<Sample>)
    requires |row| >= 2
    ensures r.Some? <==> row[0] != "" && row[1] != "" && !Contains(row[0], Marker)
                         && parseDate(DateInput(Trim(row[0]))).Some?
                         && ParseDecimal(ReplaceFirst(Trim(row[1]), ',', ".")).Some?
    ensures r.Some? ==> r.value.timestamp == parseDate(DateInput(Trim(row[0]))).value
                        && r.value.power == ParseDecimal(ReplaceFirst(Trim(row[1]), ',', ".")).value
  {
    if row[0] == "" || row[1] == "" || Contains(row[0], Marker) then None
    else
      match parseDate(DateInput(Trim(row[0])))
      case None => None
      case Some(t) =>
        match ParseDecimal(ReplaceFirst(Trim(row[1]), ',', "."))
        case None => None
        case Some(p) => Some(Sample(t, p))
  }

  /** The role of a row in the header layout: rows with fewer than two cells
      are skipped, the header row opens the data section, and any other row
      is a data candidate. */
  function Classify(parseDate: string -> Option<int>, row: seq<string>): RowAction {
    if |row| < 2 then Ignore
    else if IsHeaderRow(row) then OpenSection
    else Candidate(RowSample(parseDate, row))
  }

  /** Row `k` comes after some header row and, not being a header itself,
      yields `x`. */
  predicate YieldsAfterHeader(parseDate: string -> Option<int>, grid: seq<seq<string>>, k: int, x: Sample) {
    0 <= k < |grid| && |grid[k]| >= 2 && !IsHeaderRow(grid[k])
    && RowSample(parseDate, grid[k]) == Some(x)
    && exists j :: 0 <= j < k && IsHeaderRow(grid[j])
  }

  /** The rows after a header that yield `x`. */
  function Yielders(parseDate: string -> Option<int>, grid: seq<seq<string>>, x: Sample): set<int> {
    set k | 0 <= k < |grid| && YieldsAfterHeader(parseDate, grid, k, x)
  }

  /** `parseConsumptionData`: the samples of the data rows, sorted by time.
      A sample is in the result exactly when some row after a header yields
      it, once for each such row. */
  function ParseConsumptionData(parseDate: string -> Option<int>, grid: seq<seq<string>>): (r: seq<Sample>)
    ensures Sorted(r)
    ensures forall x :: x in r <==> exists k :: YieldsAfterHeader(parseDate, grid, k, x)
    ensures forall x :: multiset(r)[x] == |Yielders(parseDate, grid, x)|
  {
    var found := Scan(grid, row => Classify(parseDate, row), false);
    var r := SortByTimestamp(found);
    forall x
      ensures (x in r <==> exists k :: YieldsAfterHeader(parseDate, grid, k, x))
      ensures multiset(r)[x] == |Yielders(parseDate, grid, x)|
    {
      ScanMembers(parseDate, grid, x);
      RowsCounted(parseDate, grid, x);
      assert x in r <==> x in multiset(found);
    }
    r
  }

  /** A sample is collected exactly when some row after a header yields it. */
  lemma ScanMembers(parseDate: string -> Option<int>, grid: seq<seq<string>>, x: Sample)
    ensures x in Scan(grid, row => Classify(parseDate, row), false)
        <==> exists k :: YieldsAfterHeader(parseDate, grid, k, x)
  {
    if x in Scan(grid, row => Classify(parseDate, row), false) {
      FoundFollowsHeader(parseDate, grid, x);
    }
    if exists k :: YieldsAfterHeader(parseDate, grid, k, x) {
      var k :| YieldsAfterHeader(parseDate, grid, k, x);
      FollowingHeaderFound(parseDate, grid, k, x);
    }
  }

  /** Each row after a header that yields `x` puts one copy of `x` in the scan. */
  lemma RowsCounted(parseDate: string -> Option<int>, grid: seq<seq<string>>, x: Sample)
    ensures multiset(Scan(grid, row => Classify(parseDate, row), false))[x]
         == |Yielders(parseDate, grid, x)|
  {
    ScanMultiplicity(grid, row => Classify(parseDate, row), false, x);
    ContributorsYield(parseDate, grid, x);
  }

  /** The rows the scan counts for `x` are the rows after a header that yield it. */
  lemma ContributorsYield(parseDate: string -> Option<int>, grid: seq<seq<string>>, x: Sample)
    ensures Contributors(grid, row => Classify(parseDate, row), false, x, 0)
         == Yielders(parseDate, grid, x)
  {
    var c := Contributors(grid, row => Classify(parseDate, row), false, x, 0);
    var y := Yielders(parseDate, grid, x);
    forall k | k in c
      ensures k in y
    {
      ContributorIff(parseDate, grid, x, k);
    }
    forall k | k in y
      ensures k in c
    {
      ContributorIff(parseDate, grid, x, k);
    }
  }

  lemma ContributorIff(parseDate: string -> Option<int>, grid: seq<seq<string>>, x: Sample, k: int)
    requires 0 <= k < |grid|
    ensures var classify := row => Classify(parseDate, row);
            (classify(grid[k]) == Candidate(Some(x)) && OpenAfter(grid[..k], classify, false))
            <==> YieldsAfterHeader(parseDate, grid, k, x)
  {
    var classify := row => Classify(parseDate, row);
    assert classify(grid[k]) == Classify(parseDate, grid[k]);
    ClassifyYields(parseDate, grid[k], x);
    HeaderSeenBefore(parseDate, grid, k);
  }

  /** A row classifies as a candidate yielding `x` exactly when it is a data
      row that yields `x`. */
  lemma ClassifyYields(parseDate: string -> Option<int>, row: seq<string>, x: Sample)
    ensures Classify(parseDate, row) == Candidate(Some(x))
        <==> |row| >= 2 && !IsHeaderRow(row) && RowSample(parseDate, row) == Some(x)
  {
  }

  /** Collection is on at row `k` exactly when a header row precedes it. */
  lemma HeaderSeenBefore(parseDate: string -> Option<int>, grid: seq<seq<string>>, k: int)
    requires 0 <= k <= |grid|
    ensures OpenAfter(grid[..k], row => Classify(parseDate, row), false)
        <==> exists j :: 0 <= j < k && IsHeaderRow(grid[j])
  {
    if exists j :: 0 <= j < k && IsHeaderRow(grid[j]) {
      var j :| 0 <= j < k && IsHeaderRow(grid[j]);
      HeaderOpens(parseDate, grid, k, j);
    }
    if OpenAfter(grid[..k], row => Classify(parseDate, row), false) {
      OpenedByHeader(parseDate, grid, k);
    }
  }

  lemma HeaderOpens(parseDate: string -> Option<int>, grid: seq<seq<string>>, k: int, j: int)
    requires 0 <= j < k <= |grid| && IsHeaderRow(grid[j])
    ensures OpenAfter(grid[..k], row => Classify(parseDate, row), false)
  {
    var classify := row => Classify(parseDate, row);
    var rj := grid[..k][j];
    assert rj == grid[j];
    assert Classify(parseDate, rj) == OpenSection;
    assert classify(rj).OpenSection?;
  }

  lemma OpenedByHeader(parseDate: string -> Option<int>, grid: seq<seq<string>>, k: int)
    requires 0 <= k <= |grid|
    requires OpenAfter(grid[..k], row => Classify(parseDate, row), false)
    ensures exists j :: 0 <= j < k && IsHeaderRow(grid[j])
  {
    var classify := row => Classify(parseDate, row);
    var j :| 0 <= j < k && classify(grid[..k][j]).OpenSection?;
    var rj := grid[..k][j];
    assert rj == grid[j];
    assert classify(rj) == Classify(parseDate, rj);
    assert IsHeaderRow(grid[j]);
  }


  /** Every collected sample was yielded by a row after a header. */
  lemma FoundFollowsHeader(parseDate: string -> Option<int>, grid: seq<seq<string>>, x: Sample)
    requires x in Scan(grid, row => Classify(parseDate, row), false)
    ensures exists k :: YieldsAfterHeader(parseDate, grid, k, x)
  {
    var classify := row => Classify(parseDate, row);
    ScanProvenance(grid, classify, false, x);
    var k :| 0 <= k < |grid| && classify(grid[k]) == Candidate(Some(x))
             && exists j :: 0 <= j < k && classify(grid[j]).OpenSection?;
    var j :| 0 <= j < k && classify(grid[j]).OpenSection?;
    ClassifiedAsHeader(parseDate, grid[j]);
    ClassifyYields(parseDate, grid[k], x);
    assert YieldsAfterHeader(parseDate, grid, k, x);
  }

  /** Every sample a row after a header yields is collected. */
  lemma FollowingHeaderFound(parseDate: string -> Option<int>, grid: seq<seq<string>>, k: int, x: Sample)
    requires YieldsAfterHeader(parseDate, grid, k, x)
    ensures x in Scan(grid, row => Classify(parseDate, row), false)
  {
    var j := HeaderBefore(parseDate, grid, k, x);
    ScanComplete(grid, row => Classify(parseDate, row), false, j, k, x);
  }

  /** A header row before row `k`, seen through the classifier the scan uses. */
  lemma HeaderBefore(parseDate: string -> Option<int>, grid: seq<seq<string>>, k: int, x: Sample)
    returns (j: int)
    requires YieldsAfterHeader(parseDate, grid, k, x)
    ensures 0 <= j < k
    ensures (row => Classify(parseDate, row))(grid[j]).OpenSection?
    ensures (row => Classify(parseDate, row))(grid[k]) == Candidate(Some(x))
  {
    j :| 0 <= j < k && IsHeaderRow(grid[j]);
    HeaderClassified(parseDate, grid[j]);
    ClassifyYields(parseDate, grid[k], x);
  }

  lemma HeaderClassified(parseDate: string -> Option<int>, row: seq<string>)
    requires IsHeaderRow(row)
    ensures Classify(parseDate, row) == OpenSection
  {
  }

  lemma ClassifiedAsHeader(parseDate: string -> Option<int>, row: seq<string>)
    requires Classify(parseDate, row).OpenSection?
    ensures IsHeaderRow(row)
  {
  }

  /** A row that is not a header and yields no sample (too short, a blank
      cell, the marker, an invalid date or a non-numeric power) can be
      removed from the grid without changing the result. */
  lemma DroppedRowLeavesOthers(parseDate: string -> Option<int>, a: seq<seq<string>>,
                               row: seq<string>, b: seq<seq<string>>)
    requires !IsHeaderRow(row)
    requires |row| < 2 || RowSample(parseDate, row).None?
    ensures ParseConsumptionData(parseDate, a + [row] + b) == ParseConsumptionData(parseDate, a + b)
  {
    ScanDropRow(a, row, b, row => Classify(parseDate, row), false);
  }

  /** The day-first date `d/m/y` reaches the date parser as `y-m-d`; in a cell
      `dd/mm/yyyy hh:mm` the time stays attached to the year. */
  lemma DateInputReversesFields(d: string, m: string, y: string)
    requires '/' !in d && '/' !in m && '/' !in y
    ensures DateInput(d + "/" + m + "/" + y) == y + "-" + m + "-" + d
  {
    var s := d + "/" + m + "/" + y;
    SplitThree(d, m, y, '/');
    assert s[|d|] == '/';
    assert Reverse([d, m, y]) == [y, m, d];
    JoinThree(y, m, d, '-');
  }

  lemma SplitThree(a: string, b: string, c: string, sep: char)
    requires sep !in a && sep !in b && sep !in c
    ensures Split(a + [sep] + b + [sep] + c, sep) == [a, b, c]
  {
    var tail := b + [sep] + c;
    Regroup(a, b, c, sep);
    SplitTwo(b, c, sep);
    SplitConsOf(a + [sep] + b + [sep] + c, a, tail, sep);
    assert [a] + [b, c] == [a, b, c];
  }

  lemma Regroup(a: string, b: string, c: string, sep: char)
    ensures a + [sep] + b + [sep] + c == a + [sep] + (b + [sep] + c)
  {
  }

  /** `SplitCons` for a text already known to be `a`, the separator, then `tail`. */
  lemma SplitConsOf(s: string, a: string, tail: string, sep: char)
    requires sep !in a && s == a + [sep] + tail
    ensures Split(s, sep) == [a] + Split(tail, sep)
  {
    SplitCons(a, tail, sep);
  }

  lemma JoinThree(a: string, b: string, c: string, sep: char)
    ensures Join([a, b, c], sep) == a + [sep] + b + [sep] + c
  {
    assert [b, c][1..] == [c];
    assert Join([b, c], sep) == b + [sep] + c;
    assert [a, b, c][1..] == [b, c];
    assert Join([a, b, c], sep) == a + [sep] + (b + [sep] + c);
  }
}

=== FILE: marker_parser.dfy ===
/** `parseConsumptionData` of estimador.js: the marker layout. Data rows
    follow a row whose first cell contains "VALORES CONTINUOS"; the date cell
    must contain the shape `dd/mm/yyyy hh:mm`, its fields are read with
    `parseInt` and combined by `new Date(y, m - 1, d, h, mi, s)`; the power
    cell loses its first "W", has its first "," turned into "." and is read
    with `parseFloat`. */
module MarkerParser {
  import opened Wrappers
  import opened Text
  import opened Calendar
  import opened Samples
  import opened GridScan

  const Marker: string := "VALORES CONTINUOS"

  /** A row whose trimmed first cell contains the marker. */
  predicate IsMarkerRow(row: seq<string>) {
    |row| > 0 && Contains(Trim(row[0]), Marker)
  }

  /** Date cells naming a column, the address or the street are not data. */
  predicate IsLabel(dateStr: string) {
    Contains(dateStr, "Fecha") || Contains(dateStr, "Potencia")
    || Contains(dateStr, "Dirección") || Contains(dateStr, "C/ CUBA")
  }

  /** `\d{2}\/\d{2}\/\d{4} \d{2}:\d{2}` matches at position `i`; the optional
      `(:\d{2})?` suffix never decides whether the unanchored search matches. */
  predicate DateShapeAt(s: string, i: int) {
    0 <= i && i + 16 <= |s|
    && IsDigit(s[i]) && IsDigit(s[i + 1]) && s[i + 2] == '/'
    && IsDigit(s[i + 3]) && IsDigit(s[i + 4]) && s[i + 5] == '/'
    && IsDigit(s[i + 6]) && IsDigit(s[i + 7]) && IsDigit(s[i + 8]) && IsDigit(s[i + 9])
    && s[i + 10] == ' '
    && IsDigit(s[i + 11]) && IsDigit(s[i + 12]) && s[i + 13] == ':'
    && IsDigit(s[i + 14]) && IsDigit(s[i + 15])
  }

  /** `dateStr.match(...)` succeeds: the shape occurs somewhere in the cell. */
  predicate HasDateShape(s: string) {
    exists i | 0 <= i <= |s| - 16 :: DateShapeAt(s, i)
  }

  /** `parseInt(x) || 0`: a missing or `NaN` field counts as zero. */
  function FieldOrZero(parts: seq<string>, k: nat): int {
    if k < |parts| then ParseInt(parts[k]).GetOr(0) else 0
  }

  /** Hour, minute and second from the text after the first space, split on
      ":"; an empty or missing text gives midnight. */
  function TimeFields(timePart: string): (int, int, int) {
    if timePart == "" then (0, 0, 0)
    else
      var timeParts := Split(timePart, ':');
      (FieldOrZero(timeParts, 0), FieldOrZero(timeParts, 1),
       if |timeParts| > 2 then FieldOrZero(timeParts, 2) else 0)
  }

  /** Day, month and year from the text before the first space, split on "/";
      `None` when one of them is `NaN`. */
  function DateFields(datePart: string): Option<(int, int, int)> {
    var dateParts := Split(datePart, '/');
    var day := ParseInt(dateParts[0]);
    var month := if |dateParts| > 1 then ParseInt(dateParts[1]) else None;
    var year := if |dateParts| > 2 then ParseInt(dateParts[2]) else None;
    if day.None? || month.None? || year.None? then None
    else Some((day.value, month.value, year.value))
  }

  /** The time value estimador.js builds from a date cell with
      `new Date(year, month - 1, day, hour, min, sec)`. `None` is an invalid date. */
  function ParseTimestamp(dateStr: string): Option<int> {
    var parts := Split(dateStr, ' ');
    TimeValueOf(DateFields(parts[0]), TimeFields(if |parts| > 1 then parts[1] else ""))
  }

  /** `new Date(year, month - 1, day, hour, min, sec)` of the (day, month,
      year) and (hour, min, sec) fields; no date when a date field is `NaN`. */
  function TimeValueOf(date: Option<(int, int, int)>, time: (int, int, int)): Option<int> {
    match date
    case None => None
    case Some(d) => NewDate(d.2, d.1 - 1, d.0, time.0, time.1, time.2)
  }

  /** The power cell: first "W" removed, first "," made ".", trimmed, then read. */
  function ParsePower(powerStr: string): Option<real> {
    ParseDecimal(Trim(ReplaceFirst(ReplaceFirst(powerStr, 'W', ""), ',', ".")))
  }

  /** Whether a data row passes the label and emptiness checks and has the date shape. */
  predicate Screened(row: seq<string>)
    requires |row| > 1
  {
    var dateStr := Trim(row[0]);
    var powerStr := Trim(row[1]);
    dateStr != "" && powerStr != "" && !IsLabel(dateStr) && !Contains(dateStr, Marker)
    && HasDateShape(dateStr)
  }

  /** A power cell `d,f` with digit runs `d` and `f` (no unit) reads as the
      decimal number `d.f`. */
  lemma DecimalPowerCell(d: string, f: string)
    requires |d| > 0 && AllDigits(d) && |f| > 0 && AllDigits(f)
    ensures ParsePower(d + "," + f) == Some(DecimalValue(d, f))
  {
    var s := d + "," + f;
    NoCharInDigits(d, 'W');
    NoCharInDigits(f, 'W');
    NoCharInDigits(d, ',');
    assert 'W' !in s;
    assert s == d + [','] + f;
    ReplaceFirstAfter(d, f, ',', ".");
    var t := d + "." + f;
    assert !IsSpace(t[0]) && !IsSpace(t[|t| - 1]);
    DecimalParse(d, f);
  }

  /** The sample a row inside the data section yields, if any. */
  function RowSample(row: seq<string>): (r: Option<Sample>)
    requires |row| > 1
    ensures r.Some? <==> Screened(row) && ParseTimestamp(Trim(row[0])).Some?
                                     && ParsePower(Trim(row[1])).Some?
    ensures r.Some? ==> (r.value.timestamp == ParseTimestamp(Trim(row[0])).value
                         && r.value.power == ParsePower(Trim(row[1])).value)
  {
    if !Screened(row) then None
    else
      match ParseTimestamp(Trim(row[0]))
      case None => None
      case Some(t) =>
        match ParsePower(Trim(row[1]))
        case None => None
        case Some(p) => Some(Sample(t, p))
  }

  /** The role of a row in the marker layout. */
  function Classify(row: seq<string>): RowAction {
    if |row| == 0 then Ignore
    else if IsMarkerRow(row) then OpenSection
    else if |row| > 1 then Candidate(RowSample(row))
    else Ignore
  }

  /** Row `k` lies after some marker row and, being a data row, yields `x`. */
  predicate YieldsAfterMarker(grid: seq<seq<string>>, k: int, x: Sample) {
    0 <= k < |grid| && |grid[k]| > 1 && !IsMarkerRow(grid[k]) && RowSample(grid[k]) == Some(x)
    && exists j :: 0 <= j < k && IsMarkerRow(grid[j])
  }

  /** The rows after a marker row that yield `x`. */
  function Yielders(grid: seq<seq<string>>, x: Sample): set<int> {
    set k | 0 <= k < |grid| && YieldsAfterMarker(grid, k, x)
  }

  /** `parseConsumptionData`: the samples of the data rows, sorted by time.
      A sample is in the result exactly when some row after a marker row
      yields it, once for each such row. */
  function ParseConsumptionData(grid: seq<seq<string>>): (r: seq<Sample>)
    ensures Sorted(r)
    ensures forall x :: x in r <==> exists k :: YieldsAfterMarker(grid, k, x)
    ensures forall x :: multiset(r)[x] == |Yielders(grid, x)|
  {
    var found := Scan(grid, Classify, false);
    var r := SortByTimestamp(found);
    forall x
      ensures (x in r <==> exists k :: YieldsAfterMarker(grid, k, x))
      ensures multiset(r)[x] == |Yielders(grid, x)|
    {
      ScanMembers(grid, x);
      RowsCounted(grid, x);
      assert x in r <==> x in multiset(found);
    }
    r
  }

  /** A sample is collected exactly when some row after a marker row yields it. */
  lemma ScanMembers(grid: seq<seq<string>>, x: Sample)
    ensures x in Scan(grid, Classify, false) <==> exists k :: YieldsAfterMarker(grid, k, x)
  {
    if x in Scan(grid, Classify, false) {
      FoundFollowsMarker(grid, x);
    }
    if exists k :: YieldsAfterMarker(grid, k, x) {
      var k :| YieldsAfterMarker(grid, k, x);
      FollowingMarkerFound(grid, k, x);
    }
  }

  lemma FoundFollowsMarker(grid: seq<seq<string>>, x: Sample)
    requires x in Scan(grid, Classify, false)
    ensures exists k :: YieldsAfterMarker(grid, k, x)
  {
    ScanProvenance(grid, Classify, false, x);
    var k :| 0 <= k < |grid| && Classify(grid[k]) == Candidate(Some(x))
             && exists j :: 0 <= j < k && Classify(grid[j]).OpenSection?;
    assert YieldsAfterMarker(grid, k, x);
  }

  lemma FollowingMarkerFound(grid: seq<seq<string>>, k: int, x: Sample)
    requires YieldsAfterMarker(grid, k, x)
    ensures x in Scan(grid, Classify, false)
  {
    var j :| 0 <= j < k && IsMarkerRow(grid[j]);
    ScanComplete(grid, Classify, false, j, k, x);
  }


  /** Each row after a marker that yields `x` puts one copy of `x` in the scan. */
  lemma RowsCounted(grid: seq<seq<string>>, x: Sample)
    ensures multiset(Scan(grid, Classify, false))[x] == |Yielders(grid, x)|
  {
    ScanMultiplicity(grid, Classify, false, x);
    ContributorsYield(grid, x);
  }

  /** The rows the scan counts for `x` are the rows after a marker that yield it. */
  lemma ContributorsYield(grid: seq<seq<string>>, x: Sample)
    ensures Contributors(grid, Classify, false, x, 0) == Yielders(grid, x)
  {
    var c := Contributors(grid, Classify, false, x, 0);
    var y := Yielders(grid, x);
    forall k | k in c
      ensures k in y
    {
      ContributorIff(grid, x, k);
    }
    forall k | k in y
      ensures k in c
    {
      ContributorIff(grid, x, k);
    }
  }

  lemma ContributorIff(grid: seq<seq<string>>, x: Sample, k: int)
    requires 0 <= k < |grid|
    ensures (Classify(grid[k]) == Candidate(Some(x)) && OpenAfter(grid[..k], Classify, false))
        <==> YieldsAfterMarker(grid, k, x)
  {
    ClassifyYields(grid[k], x);
    MarkerSeenBefore(grid, k);
  }

  /** A row classifies as a candidate yielding `x` exactly when it is a data
      row that yields `x`. */
  lemma ClassifyYields(row: seq<string>, x: Sample)
    ensures Classify(row) == Candidate(Some(x))
        <==> |row| > 1 && !IsMarkerRow(row) && RowSample(row) == Some(x)
  {
  }

  /** Collection is on at row `k` exactly when a marker row precedes it. */
  lemma MarkerSeenBefore(grid: seq<seq<string>>, k: int)
    requires 0 <= k <= |grid|
    ensures OpenAfter(grid[..k], Classify, false) <==> exists j :: 0 <= j < k && IsMarkerRow(grid[j])
  {
    if exists j :: 0 <= j < k && IsMarkerRow(grid[j]) {
      var j :| 0 <= j < k && IsMarkerRow(grid[j]);
      MarkerOpens(grid, k, j);
    }
    if OpenAfter(grid[..k], Classify, false) {
      OpenedByMarker(grid, k);
    }
  }

  lemma MarkerOpens(grid: seq<seq<string>>, k: int, j: int)
    requires 0 <= j < k <= |grid| && IsMarkerRow(grid[j])
    ensures OpenAfter(grid[..k], Classify, false)
  {
    assert grid[..k][j] == grid[j];
    assert Classify(grid[..k][j]).OpenSection?;
  }

  lemma OpenedByMarker(grid: seq<seq<string>>, k: int)
    requires 0 <= k <= |grid| && OpenAfter(grid[..k], Classify, false)
    ensures exists j :: 0 <= j < k && IsMarkerRow(grid[j])
  {
    var j :| 0 <= j < k && Classify(grid[..k][j]).OpenSection?;
    assert grid[..k][j] == grid[j];
    assert IsMarkerRow(grid[j]);
  }


  /** A row that is not a marker and yields no sample (a label row, one
      without the date shape, one whose power is not numeric, or one too
      short) can be removed from the grid without changing the result. */
  lemma DroppedRowLeavesOthers(a: seq<seq<string>>, row: seq<string>, b: seq<seq<string>>)
    requires !IsMarkerRow(row)
    requires |row| <= 1 || RowSample(row).None?
    ensures ParseConsumptionData(a + [row] + b) == ParseConsumptionData(a + b)
  {
    ScanDropRow(a, row, b, Classify, false);
  }

  /** The date cell `dd/mm/yyyy hh:mm`. */
  function Cell(dd: string, mm: string, yyyy: string, hh: string, mi: string): string {
    dd + "/" + mm + "/" + yyyy + " " + hh + ":" + mi
  }

  /** A well-formed date cell `dd/mm/yyyy hh:mm` has the date shape, and its
      fields are read back as written: the timestamp is built from the
      decimal values `d`, `m`, `y`, `h`, `n` of the five digit groups, with
      no seconds. */
  lemma WellFormedDate(dd: string, mm: string, yyyy: string, hh: string, mi: string,
                       d: int, m: int, y: int, h: int, n: int)
    requires |dd| == 2 && |mm| == 2 && |yyyy| == 4 && |hh| == 2 && |mi| == 2
    requires AllDigits(dd) && AllDigits(mm) && AllDigits(yyyy) && AllDigits(hh) && AllDigits(mi)
    requires d == DigitsValue(dd) && m == DigitsValue(mm) && y == DigitsValue(yyyy)
    requires h == DigitsValue(hh) && n == DigitsValue(mi)
    ensures HasDateShape(Cell(dd, mm, yyyy, hh, mi))
    ensures ParseTimestamp(Cell(dd, mm, yyyy, hh, mi)) == NewDate(y, m - 1, d, h, n, 0)
  {
    WellFormedShape(dd, mm, yyyy, hh, mi);
    FieldsReadBack(dd, mm, yyyy, hh, mi, d, m, y, h, n);
  }

  /** A well-formed date cell whose hour and minute are in range is
      counted in the bucket of its hour `hh`. */
  lemma WellFormedDateHour(dd: string, mm: string, yyyy: string, hh: string, mi: string,
                           d: int, m: int, y: int, h: int, n: int)
    requires |dd| == 2 && |mm| == 2 && |yyyy| == 4 && |hh| == 2 && |mi| == 2
    requires AllDigits(dd) && AllDigits(mm) && AllDigits(yyyy) && AllDigits(hh) && AllDigits(mi)
    requires d == DigitsValue(dd) && m == DigitsValue(mm) && y == DigitsValue(yyyy)
    requires h == DigitsValue(hh) && n == DigitsValue(mi)
    requires h < 24 && n < 60
    ensures ParseTimestamp(Cell(dd, mm, yyyy, hh, mi)).Some?
            ==> HourOf(ParseTimestamp(Cell(dd, mm, yyyy, hh, mi)).value) == h
  {
    FieldsReadBack(dd, mm, yyyy, hh, mi, d, m, y, h, n);
    HourOfNewDate(y, m - 1, d, h, n, 0);
  }

  /** `ParseTimestamp` of a cell whose five fields are non-empty runs of
      digits with values `d`, `m`, `y`, `h`, `n`. */
  lemma FieldsReadBack(dd: string, mm: string, yyyy: string, hh: string, mi: string,
                       d: int, m: int, y: int, h: int, n: int)
    requires |dd| > 0 && |mm| > 0 && |yyyy| > 0 && |hh| > 0 && |mi| > 0
    requires AllDigits(dd) && AllDigits(mm) && AllDigits(yyyy) && AllDigits(hh) && AllDigits(mi)
    requires d == DigitsValue(dd) && m == DigitsValue(mm) && y == DigitsValue(yyyy)
    requires h == DigitsValue(hh) && n == DigitsValue(mi)
    ensures ParseTimestamp(Cell(dd, mm, yyyy, hh, mi)) == NewDate(y, m - 1, d, h, n, 0)
  {
    var datePart, timePart := dd + "/" + mm + "/" + yyyy, hh + ":" + mi;
    CellSplit(dd, mm, yyyy, hh, mi);
    DateCellFields(dd, mm, yyyy, d, m, y);
    TimeCellFields(hh, mi, h, n);
    TimestampOfPieces(Cell(dd, mm, yyyy, hh, mi), datePart, timePart);
    TimeValueOfFields(d, m, y, h, n);
  }


  lemma DateCellFields(dd: string, mm: string, yyyy: string, d: int, m: int, y: int)
    requires |dd| > 0 && |mm| > 0 && |yyyy| > 0
    requires AllDigits(dd) && AllDigits(mm) && AllDigits(yyyy)
    requires d == DigitsValue(dd) && m == DigitsValue(mm) && y == DigitsValue(yyyy)
    ensures DateFields(dd + "/" + mm + "/" + yyyy) == Some((d, m, y))
  {
    DateSplit(dd, mm, yyyy);
    DigitsParse(dd, d);
    DigitsParse(mm, m);
    DigitsParse(yyyy, y);
    DateFieldsOfPieces(dd + "/" + mm + "/" + yyyy, dd, mm, yyyy, d, m, y);
  }

  lemma TimeCellFields(hh: string, mi: string, h: int, n: int)
    requires |hh| > 0 && |mi| > 0 && AllDigits(hh) && AllDigits(mi)
    requires h == DigitsValue(hh) && n == DigitsValue(mi)
    ensures TimeFields(hh + ":" + mi) == (h, n, 0)
  {
    TimeSplit(hh, mi);
    DigitsParse(hh, h);
    DigitsParse(mi, n);
    TimeFieldsOfPieces(hh + ":" + mi, hh, mi, h, n);
  }

  /** The timestamp of a cell that splits into a date and a time piece is
      read from those two pieces. */
  lemma TimestampOfPieces(dateStr: string, datePart: string, timePart: string)
    requires Split(dateStr, ' ') == [datePart, timePart]
    ensures ParseTimestamp(dateStr) == TimeValueOf(DateFields(datePart), TimeFields(timePart))
  {
    var parts := Split(dateStr, ' ');
    assert |parts| > 1 && parts[0] == datePart && parts[1] == timePart;
  }

  lemma TimeValueOfFields(d: int, m: int, y: int, h: int, n: int)
    ensures TimeValueOf(Some((d, m, y)), (h, n, 0)) == NewDate(y, m - 1, d, h, n, 0)
  {
  }



  /** A cell `dd/mm/yyyy hh:mm` splits on its one space into date and time. */
  lemma CellSplit(dd: string, mm: string, yyyy: string, hh: string, mi: string)
    requires |hh| > 0
    requires AllDigits(dd) && AllDigits(mm) && AllDigits(yyyy) && AllDigits(hh) && AllDigits(mi)
    ensures Split(Cell(dd, mm, yyyy, hh, mi), ' ') == [dd + "/" + mm + "/" + yyyy, hh + ":" + mi]
  {
    var datePart := dd + "/" + mm + "/" + yyyy;
    var timePart := hh + ":" + mi;
    assert Cell(dd, mm, yyyy, hh, mi) == datePart + [' '] + timePart;
    DateHasNoSpace(dd, mm, yyyy);
    TimeSplit(hh, mi);
    SplitTwo(datePart, timePart, ' ');
  }

  lemma DateFieldsOfPieces(datePart: string, dd: string, mm: string, yyyy: string,
                           d: int, m: int, y: int)
    requires Split(datePart, '/') == [dd, mm, yyyy]
    requires ParseInt(dd) == Some(d) && ParseInt(mm) == Some(m) && ParseInt(yyyy) == Some(y)
    ensures DateFields(datePart) == Some((d, m, y))
  {
  }

  lemma TimeFieldsOfPieces(timePart: string, hh: string, mi: string, h: int, m: int)
    requires timePart != "" && Split(timePart, ':') == [hh, mi]
    requires ParseInt(hh) == Some(h) && ParseInt(mi) == Some(m)
    ensures TimeFields(timePart) == (h, m, 0)
  {
  }

  lemma WellFormedShape(dd: string, mm: string, yyyy: string, hh: string, mi: string)
    requires |dd| == 2 && |mm| == 2 && |yyyy| == 4 && |hh| == 2 && |mi| == 2
    requires AllDigits(dd) && AllDigits(mm) && AllDigits(yyyy) && AllDigits(hh) && AllDigits(mi)
    ensures HasDateShape(Cell(dd, mm, yyyy, hh, mi))
  {
    assert DateShapeAt(Cell(dd, mm, yyyy, hh, mi), 0);
  }

  lemma DateHasNoSpace(dd: string, mm: string, yyyy: string)
    requires AllDigits(dd) && AllDigits(mm) && AllDigits(yyyy)
    ensures ' ' !in dd + "/" + mm + "/" + yyyy
  {
    NoCharInDigits(dd, ' ');
    NoCharInDigits(mm, ' ');
    NoCharInDigits(yyyy, ' ');
  }

  lemma DateSplit(dd: string, mm: string, yyyy: string)
    requires AllDigits(dd) && AllDigits(mm) && AllDigits(yyyy)
    ensures Split(dd + "/" + mm + "/" + yyyy, '/') == [dd, mm, yyyy]
  {
    NoCharInDigits(dd, '/');
    NoCharInDigits(mm, '/');
    NoCharInDigits(yyyy, '/');
    SplitTwo(mm, yyyy, '/');
    assert dd + "/" + mm + "/" + yyyy == dd + ['/'] + (mm + ['/'] + yyyy);
    SplitCons(dd, mm + ['/'] + yyyy, '/');
  }

  lemma TimeSplit(hh: string, mi: string)
    requires AllDigits(hh) && AllDigits(mi)
    ensures ' ' !in hh + ":" + mi
    ensures Split(hh + ":" + mi, ':') == [hh, mi]
  {
    NoCharInDigits(hh, ':');
    NoCharInDigits(mi, ':');
    SplitTwo(hh, mi, ':');
  }

  lemma NoCharInDigits(d: string, c: char)
    requires AllDigits(d) && !IsDigit(c)
    ensures c !in d
  {
  }

  /** `parseInt` of a non-empty string of digits is its value `v`. */
  lemma DigitsParse(d: string, v: int)
    requires |d| > 0 && AllDigits(d) && v == DigitsValue(d)
    ensures ParseInt(d) == Some(v)
  {
    assert TrimStart(d) == d;
    assert SplitSign(d) == (false, d);
    DigitRunOfDigits(d, "");
    assert d + "" == d;
    assert d[..|d|] == d;
  }
}

=== FILE: numeric.dfy ===
/** Exact real arithmetic standing in for the JavaScript number operations
    the estimator uses: `reduce` sums, means, `Math.round`, `Math.max`/`Math.min`
    clamping and the `toFixed(1)` rounding of daily totals. */
module Numeric {

  function Max(a: real, b: real): real { if a >= b then a else b }

  function Min(a: real, b: real): real { if a <= b then a else b }

  /** `Math.max(lo, Math.min(hi, x))`. */
  function Clamp(lo: real, hi: real, x: real): (r: real)
    requires lo <= hi
    ensures lo <= r <= hi
    ensures lo <= x <= hi ==> r == x
    ensures x < lo ==> r == lo
    ensures x > hi ==> r == hi
  {
    Max(lo, Min(hi, x))
  }

  /** The sum of a sequence, as `reduce((sum, v) => sum + v, 0)`. */
  function Sum(s: seq<real>): real
    decreases |s|
  {
    if |s| == 0 then 0.0 else s[0] + Sum(s[1..])
  }

  lemma {:induction false} SumConcat(a: seq<real>, b: seq<real>)
    ensures Sum(a + b) == Sum(a) + Sum(b)
    decreases |a|
  {
    if |a| == 0 {
      assert a + b == b;
    } else {
      assert (a + b)[1..] == a[1..] + b;
      SumConcat(a[1..], b);
    }
  }

  /** Appending one term adds it to the sum. */
  lemma SumSnoc(a: seq<real>, x: real)
    ensures Sum(a + [x]) == Sum(a) + x
  {
    SumConcat(a, [x]);
    assert [x][1..] == [];
  }

  /** A sum of terms each bounded by `lo` and `hi` lies between `|s| * lo` and `|s| * hi`. */
  lemma {:induction false} SumBounds(s: seq<real>, lo: real, hi: real)
    requires forall i :: 0 <= i < |s| ==> lo <= s[i] <= hi
    ensures |s| as real * lo <= Sum(s) <= |s| as real * hi
    decreases |s|
  {
    if |s| > 0 {
      SumBounds(s[1..], lo, hi);
      assert |s| as real * lo == lo + |s[1..]| as real * lo;
      assert |s| as real * hi == hi + |s[1..]| as real * hi;
    }
  }

  /** Sums respect a pointwise order. */
  lemma {:induction false} SumPointwise(a: seq<real>, b: seq<real>)
    requires |a| == |b|
    requires forall i :: 0 <= i < |a| ==> a[i] <= b[i]
    ensures Sum(a) <= Sum(b)
    decreases |a|
  {
    if |a| > 0 {
      SumPointwise(a[1..], b[1..]);
    }
  }

  /** A sum of non-negative terms is non-negative. */
  lemma {:induction false} SumNonNegative(s: seq<real>)
    requires forall i :: 0 <= i < |s| ==> 0.0 <= s[i]
    ensures 0.0 <= Sum(s)
    decreases |s|
  {
    if |s| > 0 {
      SumNonNegative(s[1..]);
    }
  }

  /** A common factor comes out of a sum. */
  lemma {:induction false} SumScale(a: seq<real>, b: seq<real>, c: real)
    requires |a| == |b|
    requires forall i :: 0 <= i < |a| ==> b[i] == c * a[i]
    ensures Sum(b) == c * Sum(a)
    decreases |a|
  {
    if |a| > 0 {
      SumScale(a[1..], b[1..], c);
    }
  }

  /** The arithmetic mean: the sum divided by the number of elements. */
  function Mean(s: seq<real>): real
    requires |s| > 0
  {
    Sum(s) / |s| as real
  }

  /** A mean of values all below `c` is below `c`. */
  lemma {:induction false} MeanBelow(s: seq<real>, c: real)
    requires |s| > 0
    ensures (forall i :: 0 <= i < |s| ==> s[i] < c) ==> Mean(s) < c
  {
    if forall i :: 0 <= i < |s| ==> s[i] < c {
      StrictSumBound(s, c);
      var n := |s| as real;
      assert Sum(s) < n * c;
      assert Sum(s) / n < c;
    }
  }

  lemma {:induction false} StrictSumBound(s: seq<real>, c: real)
    requires |s| > 0
    requires forall i :: 0 <= i < |s| ==> s[i] < c
    ensures Sum(s) < |s| as real * c
    decreases |s|
  {
    if |s| == 1 {
      assert Sum(s) == s[0] + Sum(s[1..]);
      assert Sum(s[1..]) == 0.0;
    } else {
      StrictSumBound(s[1..], c);
      assert |s| as real * c == c + |s[1..]| as real * c;
    }
  }

  /** A mean of values in `[lo, hi]` lies in `[lo, hi]`. */
  lemma MeanBounds(s: seq<real>, lo: real, hi: real)
    requires |s| > 0
    requires forall i :: 0 <= i < |s| ==> lo <= s[i] <= hi
    ensures lo <= Mean(s) <= hi
  {
    SumBounds(s, lo, hi);
    var n := |s| as real;
    assert lo * n <= Sum(s) <= hi * n;
    assert Sum(s) / n >= lo;
    assert Sum(s) / n <= hi;
  }

  /** `Math.round`: the nearest integer, ties rounded towards plus infinity. */
  function Round(x: real): (r: int)
    ensures x - 0.5 < r as real <= x + 0.5
  {
    (x + 0.5).Floor
  }

  /** `Round` never decreases when its argument grows. */
  lemma RoundMonotone(x: real, y: real)
    requires x <= y
    ensures Round(x) <= Round(y)
  {
  }

  /** `parseFloat(x.toFixed(1))`: rounding to one decimal, ties away from
      zero (`toFixed` rounds the magnitude and puts the sign back). */
  function RoundTenth(x: real): (r: real)
    ensures WholeTenths(r)
    ensures x >= 0.0 ==> x - 0.05 < r <= x + 0.05
    ensures x < 0.0 ==> x - 0.05 <= r < x + 0.05
    ensures -0.05 <= r - x <= 0.05
    ensures x >= 0.0 ==> r >= 0.0
  {
    if x < 0.0 then
      var n := ((-x) * 10.0 + 0.5).Floor;
      TenthsWhole(-n);
      -(n as real) / 10.0
    else
      var n := (x * 10.0 + 0.5).Floor;
      TenthsWhole(n);
      (n as real) / 10.0
  }

  lemma TenthsWhole(n: int)
    ensures WholeTenths(n as real / 10.0)
    ensures -(n as real) / 10.0 == (-n) as real / 10.0
  {
    assert (n as real / 10.0) * 10.0 == n as real;
  }

  /** `r` is a whole number of tenths. */
  predicate WholeTenths(r: real) {
    (r * 10.0).Floor as real == r * 10.0
  }

  /** The rounding is the only whole number of tenths in its window: a
      non-negative `x` rounds to the tenth in `(x - 0.05, x + 0.05]`, a
      negative one to the tenth in `[x - 0.05, x + 0.05)`. */
  lemma RoundTenthUnique(x: real, k: int)
    requires x >= 0.0 ==> x - 0.05 < k as real / 10.0 <= x + 0.05
    requires x < 0.0 ==> x - 0.05 <= k as real / 10.0 < x + 0.05
    ensures RoundTenth(x) == k as real / 10.0
  {
    var r := RoundTenth(x);
    var m := (r * 10.0).Floor;
    var t := k as real / 10.0;
    assert r * 10.0 == m as real;
    assert t * 10.0 == k as real;
    assert -0.1 < r - t < 0.1;
    IntsClose(m, k);
  }

  lemma IntsClose(m: int, k: int)
    requires -1.0 < m as real - k as real < 1.0
    ensures m == k
  {
  }

  lemma FloorMonotone(a: real, b: real)
    requires a <= b
    ensures a.Floor <= b.Floor
  {
    assert a.Floor as real <= b;
    assert b < b.Floor as real + 1.0;
  }

  /** Rounding to tenths preserves order. */
  lemma RoundTenthMonotone(x: real, y: real)
    requires x <= y
    ensures RoundTenth(x) <= RoundTenth(y)
  {
    if x < 0.0 && y >= 0.0 {
      assert RoundTenth(x) <= 0.0;
    } else if x < 0.0 {
      FloorMonotone((-y) * 10.0 + 0.5, (-x) * 10.0 + 0.5);
      var fy := ((-y) * 10.0 + 0.5).Floor as real;
      var fx := ((-x) * 10.0 + 0.5).Floor as real;
      assert fy <= fx;
      assert RoundTenth(x) == -fx / 10.0;
      assert RoundTenth(y) == -fy / 10.0;
    } else {
      FloorMonotone(x * 10.0 + 0.5, y * 10.0 + 0.5);
      var fx := (x * 10.0 + 0.5).Floor as real;
      var fy := (y * 10.0 + 0.5).Floor as real;
      assert RoundTenth(x) == fx / 10.0;
      assert RoundTenth(y) == fy / 10.0;
    }
  }
}

=== FILE: pattern.dfy ===
/** `analyzeConsumptionPattern` and `generateDefaultHourlyPattern` of both
    scripts: the stabilization search, the initial- and maintenance-phase
    means, the 24-hour profile with banded interpolation of empty hours, and
    the fixed template used when there are fewer than ten samples. */
module Pattern {
  import opened Wrappers
  import opened Numeric
  import opened Calendar
  import opened Samples

  /** Which script's variant of an operation: estimador.js or script.js. */
  datatype Variant = Estimador | Script

  /** One entry of the hourly profile: the hour of the day and its power in watts. */
  datatype HourEntry = HourEntry(hour: int, power: real)

  /** The analysed consumption pattern. */
  datatype ConsumptionPattern = ConsumptionPattern(
    initialPhasePower: real,
    maintenancePower: real,
    stabilizationHours: int,
    hourlyPattern: seq<HourEntry>)

  /** Power in watts below which the heating counts as stabilized. */
  const StableLimit: real := 700.0

  /** The number of samples below which the default pattern is used. */
  const MinSamples: int := 10

  /** The powers of a sequence of samples, in order. */
  function Powers(s: seq<Sample>): (r: seq<real>)
    ensures |r| == |s|
    ensures forall i :: 0 <= i < |s| ==> r[i] == s[i].power
  {
    seq(|s|, i requires 0 <= i < |s| => s[i].power)
  }

  /** Sample `i` and the mean of the five samples from `i` are both below 700 W. */
  predicate StableAt(p: seq<real>, i: int)
    requires 0 <= i && i + 5 <= |p|
  {
    Sum(p[i..i + 5]) / 5.0 < StableLimit && p[i] < StableLimit
  }

  /** The index used when the scan finds no stable window:
      `min(floor(n * 0.5), n - 10)`. */
  function FallbackIndex(n: int): (r: int)
    requires n >= MinSamples
    ensures 0 <= r <= n - 10
  {
    if n / 2 <= n - 10 then n / 2 else n - 10
  }

  /** Some index in `10 .. |p| - 6` is stable. */
  predicate HasStableIndex(p: seq<real>) {
    exists i | 10 <= i < |p| - 5 :: StableAt(p, i)
  }

  /** The first stable index at or after `i`, scanning while `i < |p| - 5`. */
  function FirstStableFrom(p: seq<real>, i: nat): (r: Option<nat>)
    ensures r.Some? ==> i <= r.value < |p| - 5 && StableAt(p, r.value)
    ensures r.Some? ==> forall j :: i <= j < r.value ==> !StableAt(p, j)
    ensures r.None? ==> forall j :: i <= j < |p| - 5 ==> !StableAt(p, j)
    decreases |p| - i
  {
    if i >= |p| - 5 then None
    else if StableAt(p, i) then Some(i)
    else FirstStableFrom(p, i + 1)
  }

  /** The stabilization index: the first stable index from 10 on, or the
      fallback when there is none. It always leaves at least six samples
      from it to the end, so the lookup of its timestamp is in bounds. */
  function StabilizationIndex(p: seq<real>): (idx: nat)
    requires |p| >= MinSamples
    ensures idx <= |p| - 6
    ensures HasStableIndex(p) ==> 10 <= idx && StableAt(p, idx)
                                  && forall j :: 10 <= j < idx ==> !StableAt(p, j)
    ensures !HasStableIndex(p) ==> idx == FallbackIndex(|p|)
  {
    match FirstStableFrom(p, 10)
    case Some(i) => i
    case None => FallbackIndex(|p|)
  }

  /** The loop both scripts run: scan `i` from 10 while `i < n - 5`, stopping at
      the first stable window. */
  method FindStabilizationIndex(p: seq<real>) returns (idx: nat)
    requires |p| >= MinSamples
    ensures idx <= |p| - 6
    ensures HasStableIndex(p) ==> 10 <= idx && StableAt(p, idx)
                                  && forall j :: 10 <= j < idx ==> !StableAt(p, j)
    ensures !HasStableIndex(p) ==> idx == FallbackIndex(|p|)
  {
    idx := FallbackIndex(|p|);
    var i := 10;
    while i < |p| - 5
      invariant 10 <= i <= if |p| - 5 > 10 then |p| - 5 else 10
      invariant forall j :: 10 <= j < i ==> !StableAt(p, j)
      decreases |p| - i
    {
      if StableAt(p, i) {
        return i;
      }
      i := i + 1;
    }
  }

  /** The samples of the initial phase: the first `max(10, idx)`. */
  function InitialPhase(p: seq<real>, idx: nat): (r: seq<real>)
    requires |p| >= MinSamples && idx <= |p|
    ensures |r| == if idx > 10 then idx else 10
    ensures r == p[..|r|]
  {
    p[..if idx > 10 then idx else 10]
  }

  /** The samples of the maintenance phase: from `idx` to the end. */
  function MaintenancePhase(p: seq<real>, idx: nat): (r: seq<real>)
    requires idx <= |p|
    ensures |r| == |p| - idx
    ensures p == p[..idx] + r
  {
    p[idx..]
  }

  /** The maintenance mean, or 600 W for an empty maintenance phase. */
  function MaintenanceMean(m: seq<real>): real {
    if |m| > 0 then Mean(m) else 600.0
  }

  /** `parseFloat(input) || 610`: a zero (or unreadable) override falls back to 610 W. */
  function MaintenanceOrDefault(input: real): (r: real)
    ensures r != 0.0
    ensures input == 0.0 ==> r == 610.0
    ensures input != 0.0 ==> r == input
  {
    if input == 0.0 then 610.0 else input
  }

  /** Whether a sample belongs to the bucket of hour `h`. estimador.js takes
      every sample at that hour. script.js keeps its own three-way test
      of the date: the 23rd from 14:00 on, the 24th before 08:00, otherwise
      the hour and the 23rd together. */
  predicate InBucket(v: Variant, x: Sample, h: int) {
    match v
    case Estimador => HourOf(x.timestamp) == h
    case Script =>
      var date := DateOf(x.timestamp);
      if date == 23 && h >= 14 then HourOf(x.timestamp) == h
      else if date == 24 && h < 8 then HourOf(x.timestamp) == h
      else HourOf(x.timestamp) == h && date == 23
  }

  /** script.js's bucket: samples at hour `h` dated the 23rd, plus those
      dated the 24th when `h < 8`. */
  lemma ScriptBucketDays(x: Sample, h: int)
    ensures InBucket(Script, x, h)
        <==> HourOf(x.timestamp) == h
             && (DateOf(x.timestamp) == 23 || (DateOf(x.timestamp) == 24 && h < 8))
  {
  }

  /** The powers of the samples in the bucket of hour `h`, in order. */
  function Bucket(v: Variant, s: seq<Sample>, h: int): (r: seq<real>)
    ensures |r| <= |s|
    ensures forall y :: y in r ==> exists x :: x in s && InBucket(v, x, h) && x.power == y
    ensures forall x :: x in s && InBucket(v, x, h) ==> x.power in r
    decreases |s|
  {
    if |s| == 0 then []
    else
      var rest := Bucket(v, s[1..], h);
      assert forall x :: x in s[1..] ==> x in s;
      assert forall x :: x in s ==> x == s[0] || x in s[1..];
      if InBucket(v, s[0], h) then [s[0].power] + rest else rest
  }

  /** The positions from `k` on of the samples in the bucket of hour `h`
      whose power is `y`. */
  function BucketIndices(v: Variant, s: seq<Sample>, h: int, y: real, k: nat): set<int> {
    set i | k <= i < |s| && InBucket(v, s[i], h) && s[i].power == y
  }

  /** The bucket keeps every sample of its hour, duplicates included: a power
      occurs in it as often as there are bucket samples carrying it. */
  lemma BucketMultiplicity(v: Variant, s: seq<Sample>, h: int, y: real)
    ensures multiset(Bucket(v, s, h))[y] == |BucketIndices(v, s, h, y, 0)|
  {
    SuffixMultiplicity(v, s, h, y, 0);
    assert s[0..] == s;
  }

  lemma {:induction false} SuffixMultiplicity(v: Variant, s: seq<Sample>, h: int, y: real, k: nat)
    requires 0 <= k <= |s|
    ensures multiset(Bucket(v, s[k..], h))[y] == |BucketIndices(v, s, h, y, k)|
    decreases |s| - k
  {
    if k < |s| {
      SuffixMultiplicity(v, s, h, y, k + 1);
      BucketStep(v, s, h, k);
      IndicesStep(v, s, h, y, k);
      assert k !in BucketIndices(v, s, h, y, k + 1);
    } else {
      assert BucketIndices(v, s, h, y, k) == {};
    }
  }

  /** The bucket of a suffix is its first sample's power, when that sample
      is in the bucket, followed by the bucket of the rest. */
  lemma BucketStep(v: Variant, s: seq<Sample>, h: int, k: nat)
    requires k < |s|
    ensures Bucket(v, s[k..], h)
         == (if InBucket(v, s[k], h) then [s[k].power] else []) + Bucket(v, s[k + 1..], h)
  {
    assert s[k..][0] == s[k] && s[k..][1..] == s[k + 1..];
  }

  /** The matching indices from `k` on are `k` itself, when it matches, and
      those from `k + 1` on. */
  lemma IndicesStep(v: Variant, s: seq<Sample>, h: int, y: real, k: nat)
    requires k < |s|
    ensures BucketIndices(v, s, h, y, k)
         == (if InBucket(v, s[k], h) && s[k].power == y then {k} else {})
            + BucketIndices(v, s, h, y, k + 1)
  {
  }

  /** The power an hour with no samples gets, by time band. script.js has no
      late-evening band: hours 22 and 23 fall through to the last case. */
  function Interpolate(v: Variant, h: int, initial: real, maintenance: real): real {
    if h < 6 || (v == Estimador && h >= 22) then initial * 0.9
    else if h < 10 then initial * 0.8
    else if h < 18 then maintenance * 1.1
    else initial * 0.85
  }

  /** The two variants interpolate alike except at 22:00 and 23:00, where
      estimador.js uses 90% of the initial power and script.js 85%. */
  lemma InterpolationVariants(h: int, initial: real, maintenance: real)
    requires 0 <= h < 24
    ensures h < 22 ==> Interpolate(Estimador, h, initial, maintenance)
                       == Interpolate(Script, h, initial, maintenance)
    ensures h >= 22 ==> Interpolate(Estimador, h, initial, maintenance) == initial * 0.9
                        && Interpolate(Script, h, initial, maintenance) == initial * 0.85
  {
  }

  /** The rounded power of hour `h`: the bucket's mean, or the interpolated
      value when the bucket is empty. */
  function HourPower(v: Variant, s: seq<Sample>, h: int, initial: real, maintenance: real): real {
    var b := Bucket(v, s, h);
    Round(if |b| > 0 then Mean(b) else Interpolate(v, h, initial, maintenance)) as real
  }

  /** The 24-entry profile: entry `h` is hour `h`, with the rounded mean of
      the samples in its bucket or, for an empty bucket, the rounded
      interpolation of its band. */
  function HourlyProfile(v: Variant, s: seq<Sample>, initial: real, maintenance: real)
    : (r: seq<HourEntry>)
    ensures |r| == 24
    ensures forall h :: 0 <= h < 24 ==> r[h].hour == h
    ensures forall h :: 0 <= h < 24 && |Bucket(v, s, h)| > 0 ==>
              r[h].power == Round(Mean(Bucket(v, s, h))) as real
    ensures forall h :: 0 <= h < 24 && |Bucket(v, s, h)| == 0 ==>
              r[h].power == Round(Interpolate(v, h, initial, maintenance)) as real
  {
    seq(24, h requires 0 <= h < 24 => HourEntry(h, HourPower(v, s, h, initial, maintenance)))
  }

  /** The template both scripts start from, hour by hour. */
  const Template: seq<real> := [
    950.0, 950.0, 900.0, 850.0, 900.0, 950.0, 850.0, 800.0, 750.0, 700.0, 650.0, 600.0,
    550.0, 550.0, 580.0, 600.0, 620.0, 650.0, 680.0, 700.0, 680.0, 650.0, 600.0, 550.0]

  /** Template values at or below this are maintenance hours. */
  const MaintenanceCut: real := 650.0

  /** The default power of hour `h` given the maintenance power `m`:
      estimador.js puts `m` itself in every maintenance hour, script.js
      scales the template by `m / 610` and clamps it to [500, 700]. */
  function DefaultPower(v: Variant, h: int, m: real): real
    requires 0 <= h < 24
  {
    if Template[h] > MaintenanceCut then Template[h]
    else match v
      case Estimador => m
      case Script => Clamp(500.0, 700.0, m * (Template[h] / 610.0))
  }

  /** `generateDefaultHourlyPattern`: 24 entries; hours above the cut keep
      the template, the others become the maintenance power (estimador.js)
      or a scaled value within [500, 700] (script.js). */
  function DefaultProfile(v: Variant, m: real): (r: seq<HourEntry>)
    ensures |r| == 24
    ensures forall h :: 0 <= h < 24 ==> r[h].hour == h
    ensures forall h :: 0 <= h < 24 && Template[h] > MaintenanceCut ==> r[h].power == Template[h]
    ensures forall h :: 0 <= h < 24 && Template[h] <= MaintenanceCut && v == Estimador ==>
              r[h].power == m
    ensures forall h :: 0 <= h < 24 && Template[h] <= MaintenanceCut && v == Script ==>
              500.0 <= r[h].power <= 700.0
              && r[h].power == Clamp(500.0, 700.0, m * (Template[h] / 610.0))
  {
    seq(24, h requires 0 <= h < 24 => HourEntry(h, DefaultPower(v, h, m)))
  }

  /** The maintenance hours of the template are 10 to 17 and 21 to 23. */
  predicate IsMaintenanceHour(h: int) {
    10 <= h <= 17 || 21 <= h <= 23
  }

  lemma MaintenanceHoursOfTemplate(h: int)
    requires 0 <= h < 24
    ensures Template[h] <= MaintenanceCut <==> IsMaintenanceHour(h)
  {
  }

  /** With estimador.js's default profile, hours outside the maintenance set
      keep a template value of at least 680 W, and the maintenance hours
      all carry `m`. */
  lemma EstimadorDefaultShape(m: real, h: int)
    requires 0 <= h < 24
    ensures IsMaintenanceHour(h) ==> DefaultProfile(Estimador, m)[h].power == m
    ensures !IsMaintenanceHour(h) ==> DefaultProfile(Estimador, m)[h].power == Template[h]
                                      && Template[h] >= 680.0
  {
    MaintenanceHoursOfTemplate(h);
  }

  /** At the nominal 610 W the script.js profile is the template itself. */
  lemma ScriptDefaultAtNominal(h: int)
    requires 0 <= h < 24
    ensures DefaultProfile(Script, 610.0)[h].power == Template[h]
  {
    var p := DefaultProfile(Script, 610.0);
    if Template[h] <= MaintenanceCut {
      assert 610.0 * (Template[h] / 610.0) == Template[h];
      assert 500.0 <= Template[h] <= 700.0;
    }
  }

  /** `analyzeConsumptionPattern` over the sorted samples. `maintenanceInput`
      is the maintenance-power field as read by `parseFloat`. */
  function AnalyzePattern(v: Variant, s: seq<Sample>, maintenanceInput: real)
    : (r: ConsumptionPattern)
    ensures |r.hourlyPattern| == 24
    ensures forall h :: 0 <= h < 24 ==> r.hourlyPattern[h].hour == h
    ensures |s| < MinSamples ==>
              r.initialPhasePower == 950.0 && r.stabilizationHours == 14
              && r.maintenancePower == MaintenanceOrDefault(maintenanceInput)
              && r.hourlyPattern == DefaultProfile(v, MaintenanceOrDefault(maintenanceInput))
    ensures |s| >= MinSamples ==>
              var p := Powers(s);
              var idx := StabilizationIndex(p);
              var initial := Mean(InitialPhase(p, idx));
              var maintenance := MaintenanceMean(MaintenancePhase(p, idx));
              r.initialPhasePower == Round(initial) as real
              && r.maintenancePower == Round(maintenance) as real
              && r.stabilizationHours == Round((s[idx].timestamp - s[0].timestamp) as real / MsPerHour as real)
              && r.hourlyPattern == HourlyProfile(v, s, initial, maintenance)
  {
    if |s| < MinSamples then
      var m := MaintenanceOrDefault(maintenanceInput);
      ConsumptionPattern(950.0, m, 14, DefaultProfile(v, m))
    else
      var p := Powers(s);
      var idx := StabilizationIndex(p);
      var initial := Mean(InitialPhase(p, idx));
      var maintenance := MaintenanceMean(MaintenancePhase(p, idx));
      ConsumptionPattern(
        Round(initial) as real,
        Round(maintenance) as real,
        Round((s[idx].timestamp - s[0].timestamp) as real / MsPerHour as real),
        HourlyProfile(v, s, initial, maintenance))
  }

  /** With enough samples the maintenance phase is never empty, so the 600 W
      default is never used, and its mean is the maintenance power. */
  lemma MaintenancePhaseNonEmpty(p: seq<real>)
    requires |p| >= MinSamples
    ensures |MaintenancePhase(p, StabilizationIndex(p))| >= 6
    ensures |InitialPhase(p, StabilizationIndex(p))| <= |p|
  {
  }

  /** When every sample's power lies in `[lo, hi]`, so do the phase powers
      and every hour that has samples, up to rounding. */
  lemma PatternWithinSampleRange(v: Variant, s: seq<Sample>, maintenanceInput: real,
                                 lo: real, hi: real)
    requires |s| >= MinSamples
    requires forall i :: 0 <= i < |s| ==> lo <= s[i].power <= hi
    ensures Round(lo) as real <= AnalyzePattern(v, s, maintenanceInput).initialPhasePower
                             <= Round(hi) as real
    ensures Round(lo) as real <= AnalyzePattern(v, s, maintenanceInput).maintenancePower
                             <= Round(hi) as real
    ensures forall h :: 0 <= h < 24 && |Bucket(v, s, h)| > 0 ==>
              Round(lo) as real <= AnalyzePattern(v, s, maintenanceInput).hourlyPattern[h].power
                                <= Round(hi) as real
  {
    var p := Powers(s);
    var idx := StabilizationIndex(p);
    var ini := InitialPhase(p, idx);
    var mnt := MaintenancePhase(p, idx);
    MeanBounds(ini, lo, hi);
    MeanBounds(mnt, lo, hi);
    RoundMonotone(lo, Mean(ini));
    RoundMonotone(Mean(ini), hi);
    RoundMonotone(lo, Mean(mnt));
    RoundMonotone(Mean(mnt), hi);
    var r := AnalyzePattern(v, s, maintenanceInput);
    forall h | 0 <= h < 24 && |Bucket(v, s, h)| > 0
      ensures Round(lo) as real <= r.hourlyPattern[h].power <= Round(hi) as real
    {
      BucketWithin(v, s, h, lo, hi);
    }
  }

  /** The mean of a non-empty bucket, rounded, lies between the rounded bounds. */
  lemma BucketWithin(v: Variant, s: seq<Sample>, h: int, lo: real, hi: real)
    requires forall i :: 0 <= i < |s| ==> lo <= s[i].power <= hi
    requires |Bucket(v, s, h)| > 0
    ensures Round(lo) <= Round(Mean(Bucket(v, s, h))) <= Round(hi)
  {
    var b := Bucket(v, s, h);
    forall i | 0 <= i < |b|
      ensures lo <= b[i] <= hi
    {
      assert b[i] in b;
      var x :| x in s && InBucket(v, x, h) && x.power == b[i];
    }
    MeanBounds(b, lo, hi);
    RoundMonotone(lo, Mean(b));
    RoundMonotone(Mean(b), hi);
  }

  /** Over time-sorted samples the stabilization time is never negative. */
  lemma SortedStabilizationNonNegative(v: Variant, s: seq<Sample>, maintenanceInput: real)
    requires Sorted(s)
    ensures AnalyzePattern(v, s, maintenanceInput).stabilizationHours >= 0
  {
    if |s| >= MinSamples {
      var idx := StabilizationIndex(Powers(s));
      assert s[0].timestamp <= s[idx].timestamp;
      assert (s[idx].timestamp - s[0].timestamp) as real / MsPerHour as real >= 0.0;
    }
  }
}

=== FILE: projection.dfy ===
/** `calculateDailyConsumption` of both scripts (identical in the two): for
    each forecast day a temperature factor and a weekday factor scale the
    24-hour profile, maintenance hours take the configured maintenance power,
    and the day's kWh is the sum of the hourly powers over 1000, rounded to
    one decimal. */
module Projection {
  import opened Numeric
  import opened Pattern
  import opened Forecast

  /** The form fields the estimate reads: target temperature in degrees
      Celsius, consumption factor per degree, and the maintenance power in
      watts as `parseFloat` reads it. */
  datatype Settings = Settings(targetTemp: real, consumptionFactor: real, maintenancePower: real)

  /** One day's projection: its time value, kWh rounded to one decimal, and
      the temperature difference and factors that produced it. */
  datatype DailyEstimate = DailyEstimate(date: int, consumption: real, tempDiff: real,
                                         tempFactor: real, dayFactor: real)

  /** `1 + max(0, target - avg) * factor`. */
  function TempFactor(target: real, avg: real, factor: real): (r: real)
    ensures factor >= 0.0 ==> r >= 1.0
    ensures avg >= target ==> r == 1.0
    ensures avg < target ==> r - 1.0 == (target - avg) * factor
  {
    1.0 + Max(0.0, target - avg) * factor
  }

  /** A higher target temperature never lowers the temperature factor. */
  lemma TempFactorMonotone(t1: real, t2: real, avg: real, factor: real)
    requires t1 <= t2 && factor >= 0.0
    ensures TempFactor(t1, avg, factor) <= TempFactor(t2, avg, factor)
  {
    assert Max(0.0, t1 - avg) <= Max(0.0, t2 - avg);
    MulMonotone(Max(0.0, t1 - avg), Max(0.0, t2 - avg), factor);
  }

  lemma MulMonotone(a: real, b: real, c: real)
    requires a <= b && c >= 0.0
    ensures a * c <= b * c
  {
  }

  /** Days 5 and 6 of the week (Saturday and Sunday) count 85%, the others in full. */
  function DayFactor(index: int): (r: real)
    ensures index >= 5 ==> r == 0.85
    ensures index < 5 ==> r == 1.0
    ensures 0.0 < r <= 1.0
  {
    if index >= 5 then 0.85 else 1.0
  }

  /** An hour of the profile runs in maintenance mode when its power is at
      most 120% of the pattern's maintenance power. */
  predicate IsMaintenanceEntry(e: HourEntry, patternMaintenance: real) {
    e.power <= patternMaintenance * 1.2
  }

  /** The power an hour runs at before the day factor: the configured
      maintenance power in maintenance mode, the profile's power otherwise,
      scaled by the temperature factor. */
  function HourBase(e: HourEntry, patternMaintenance: real, maintenancePower: real): real {
    if IsMaintenanceEntry(e, patternMaintenance) then maintenancePower else e.power
  }

  /** Each hour's kWh for one day: adjusted power over 1000. */
  function HourKwhs(hours: seq<HourEntry>, patternMaintenance: real, maintenancePower: real,
                    tf: real, df: real): (r: seq<real>)
    ensures |r| == |hours|
    ensures forall i :: 0 <= i < |hours| ==>
              r[i] == HourBase(hours[i], patternMaintenance, maintenancePower) * tf * df / 1000.0
  {
    seq(|hours|, i requires 0 <= i < |hours| =>
      HourBase(hours[i], patternMaintenance, maintenancePower) * tf * df / 1000.0)
  }

  /** The unrounded kWh of one day. */
  function DayKwh(p: ConsumptionPattern, s: Settings, avgTemp: real, index: int): real {
    var tf := TempFactor(s.targetTemp, avgTemp, s.consumptionFactor);
    Sum(HourKwhs(p.hourlyPattern, p.maintenancePower, s.maintenancePower, tf, DayFactor(index)))
  }

  /** Each hour's kWh before any factor is applied. */
  function UnitKwhs(hours: seq<HourEntry>, patternMaintenance: real, maintenancePower: real)
    : (r: seq<real>)
    ensures |r| == |hours|
    ensures forall i :: 0 <= i < |hours| ==>
              r[i] == HourBase(hours[i], patternMaintenance, maintenancePower) / 1000.0
  {
    seq(|hours|, i requires 0 <= i < |hours| =>
      HourBase(hours[i], patternMaintenance, maintenancePower) / 1000.0)
  }

  /** The day's kWh is the day and temperature factors times the kWh of the
      unadjusted hours: a weekend day uses 85% of a weekday at the same
      temperature. */
  lemma DayKwhFactors(p: ConsumptionPattern, s: Settings, avgTemp: real, index: int)
    ensures DayKwh(p, s, avgTemp, index)
         == (TempFactor(s.targetTemp, avgTemp, s.consumptionFactor) * DayFactor(index))
            * Sum(UnitKwhs(p.hourlyPattern, p.maintenancePower, s.maintenancePower))
  {
    FactorOut(p.hourlyPattern, p.maintenancePower, s.maintenancePower,
              TempFactor(s.targetTemp, avgTemp, s.consumptionFactor), DayFactor(index));
  }

  /** The factors of every hour come out of the day's sum. */
  lemma FactorOut(hours: seq<HourEntry>, pm: real, mp: real, tf: real, df: real)
    ensures Sum(HourKwhs(hours, pm, mp, tf, df)) == (tf * df) * Sum(UnitKwhs(hours, pm, mp))
  {
    ScaledHours(hours, pm, mp, tf, df);
    SumScale(UnitKwhs(hours, pm, mp), HourKwhs(hours, pm, mp, tf, df), tf * df);
  }

  /** Every hour's kWh is its unadjusted kWh times both factors. */
  lemma ScaledHours(hours: seq<HourEntry>, pm: real, mp: real, tf: real, df: real)
    ensures forall i :: 0 <= i < |hours| ==>
              HourKwhs(hours, pm, mp, tf, df)[i] == (tf * df) * UnitKwhs(hours, pm, mp)[i]
  {
    forall i | 0 <= i < |hours| {
      ScaleTerm(HourBase(hours[i], pm, mp), tf, df);
    }
  }

  lemma ScaleTerm(b: real, tf: real, df: real)
    ensures b * tf * df / 1000.0 == (tf * df) * (b / 1000.0)
  {
  }

  /** Every hour's base power and the factor are non-negative. */
  predicate NonNegativeInputs(p: ConsumptionPattern, s: Settings) {
    s.maintenancePower >= 0.0 && s.consumptionFactor >= 0.0
    && forall i :: 0 <= i < |p.hourlyPattern| ==> p.hourlyPattern[i].power >= 0.0
  }

  /** Raising the target temperature never lowers a day's kWh. */
  lemma DayKwhMonotoneInTarget(p: ConsumptionPattern, s: Settings, target2: real,
                               avgTemp: real, index: int)
    requires NonNegativeInputs(p, s) && s.targetTemp <= target2
    ensures DayKwh(p, s, avgTemp, index) <= DayKwh(p, s.(targetTemp := target2), avgTemp, index)
  {
    var s2 := s.(targetTemp := target2);
    assert s2.targetTemp == target2 && s2.consumptionFactor == s.consumptionFactor
        && s2.maintenancePower == s.maintenancePower;
    TempFactorMonotone(s.targetTemp, target2, avgTemp, s.consumptionFactor);
    DaysOrdered(p.hourlyPattern, p.maintenancePower, s.maintenancePower,
                TempFactor(s.targetTemp, avgTemp, s.consumptionFactor),
                TempFactor(target2, avgTemp, s.consumptionFactor), DayFactor(index));
  }

  /** With non-negative powers, a larger temperature factor gives a day at
      least as large, hour by hour and so in total. */
  lemma DaysOrdered(hours: seq<HourEntry>, pm: real, mp: real, tf1: real, tf2: real, df: real)
    requires tf1 <= tf2 && df >= 0.0 && mp >= 0.0
    requires forall i :: 0 <= i < |hours| ==> hours[i].power >= 0.0
    ensures Sum(HourKwhs(hours, pm, mp, tf1, df)) <= Sum(HourKwhs(hours, pm, mp, tf2, df))
  {
    var a, b := HourKwhs(hours, pm, mp, tf1, df), HourKwhs(hours, pm, mp, tf2, df);
    forall i | 0 <= i < |a|
      ensures a[i] <= b[i]
    {
      assert HourBase(hours[i], pm, mp) >= 0.0;
      ScaledHourMonotone(HourBase(hours[i], pm, mp), tf1, tf2, df);
    }
    SumPointwise(a, b);
  }

  lemma ScaledHourMonotone(base: real, tf1: real, tf2: real, df: real)
    requires base >= 0.0 && df >= 0.0 && tf1 <= tf2
    ensures base * tf1 * df / 1000.0 <= base * tf2 * df / 1000.0
  {
    MulMonotone(tf1, tf2, base);
    assert base * tf1 <= base * tf2;
    MulMonotone(base * tf1, base * tf2, df);
  }

  /** ... and so never lowers the rounded daily figure either. */
  lemma RoundedDayMonotoneInTarget(p: ConsumptionPattern, s: Settings, target2: real,
                                   avgTemp: real, index: int)
    requires NonNegativeInputs(p, s) && s.targetTemp <= target2
    ensures RoundTenth(DayKwh(p, s, avgTemp, index))
         <= RoundTenth(DayKwh(p, s.(targetTemp := target2), avgTemp, index))
  {
    DayKwhMonotoneInTarget(p, s, target2, avgTemp, index);
    RoundTenthMonotone(DayKwh(p, s, avgTemp, index),
                       DayKwh(p, s.(targetTemp := target2), avgTemp, index));
  }

  /** `calculateDailyConsumption`: one estimate per forecast day, in order. */
  function DailyConsumption(p: ConsumptionPattern, s: Settings, forecast: seq<ForecastDay>)
    : (r: seq<DailyEstimate>)
    ensures |r| == |forecast|
    ensures forall i :: 0 <= i < |forecast| ==>
              r[i].date == forecast[i].date
              && r[i].tempDiff == s.targetTemp - forecast[i].avgTemp
              && r[i].tempFactor == TempFactor(s.targetTemp, forecast[i].avgTemp, s.consumptionFactor)
              && r[i].dayFactor == DayFactor(i)
              && r[i].consumption == RoundTenth(DayKwh(p, s, forecast[i].avgTemp, i))
              && WholeTenths(r[i].consumption)
              && -0.05 <= r[i].consumption - DayKwh(p, s, forecast[i].avgTemp, i) <= 0.05
  {
    seq(|forecast|, i requires 0 <= i < |forecast| =>
      DailyEstimate(forecast[i].date,
                    RoundTenth(DayKwh(p, s, forecast[i].avgTemp, i)),
                    s.targetTemp - forecast[i].avgTemp,
                    TempFactor(s.targetTemp, forecast[i].avgTemp, s.consumptionFactor),
                    DayFactor(i)))
  }
}

=== FILE: samples.dfy ===
/** Power samples and the `sort((a, b) => a.timestamp - b.timestamp)` both
    parsers finish with. */
module Samples {

  /** One reading: a time value in milliseconds and the power in watts. */
  datatype Sample = Sample(timestamp: int, power: real)

  /** Non-decreasing timestamps. */
  predicate Sorted(s: seq<Sample>) {
    forall i, j :: 0 <= i < j < |s| ==> s[i].timestamp <= s[j].timestamp
  }

  /** Inserts `x` into a sorted sequence after every element whose timestamp
      is not larger, so that equal timestamps keep their arrival order. */
  function Insert(x: Sample, s: seq<Sample>): (r: seq<Sample>)
    requires Sorted(s)
    ensures Sorted(r)
    ensures |r| == |s| + 1
    ensures forall k :: 0 <= k < |r| ==> r[k] == x || r[k] in s
    ensures multiset(r) == multiset(s) + multiset{x}
    decreases |s|
  {
    if |s| == 0 then [x]
    else if x.timestamp < s[0].timestamp then [x] + s
    else
      var rest := Insert(x, s[1..]);
      InsertBehindHead(x, s, rest);
      assert s == [s[0]] + s[1..];
      [s[0]] + rest
  }

  /** What is inserted behind the head of a sorted sequence stays at or
      after its timestamp. */
  lemma StaysAbove(x: Sample, s: seq<Sample>, rest: seq<Sample>)
    requires Sorted(s) && |s| > 0 && s[0].timestamp <= x.timestamp
    requires forall k :: 0 <= k < |rest| ==> rest[k] == x || rest[k] in s[1..]
    ensures forall k :: 0 <= k < |rest| ==> s[0].timestamp <= rest[k].timestamp
  {
    forall k | 0 <= k < |rest|
      ensures s[0].timestamp <= rest[k].timestamp
    {
      if rest[k] != x {
        var j :| 0 <= j < |s[1..]| && s[1..][j] == rest[k];
        assert s[j + 1] == rest[k];
      }
    }
  }

  /** Putting the head back in front of the insertion into the tail keeps
      the order, and every element still comes from `s` or is `x`. */
  lemma InsertBehindHead(x: Sample, s: seq<Sample>, rest: seq<Sample>)
    requires Sorted(s) && |s| > 0 && s[0].timestamp <= x.timestamp
    requires Sorted(rest)
    requires forall k :: 0 <= k < |rest| ==> rest[k] == x || rest[k] in s[1..]
    ensures Sorted([s[0]] + rest)
    ensures forall k :: 0 <= k < |rest| + 1 ==> ([s[0]] + rest)[k] == x || ([s[0]] + rest)[k] in s
  {
    StaysAbove(x, s, rest);
    var r := [s[0]] + rest;
    forall k | 0 <= k < |r|
      ensures r[k] == x || r[k] in s
    {
      if k > 0 {
        assert r[k] == rest[k - 1];
      }
    }
  }

  /** An insertion sort by timestamp: the samples reordered, none added or lost. */
  function SortByTimestamp(s: seq<Sample>): (r: seq<Sample>)
    ensures Sorted(r)
    ensures multiset(r) == multiset(s)
    ensures |r| == |s|
    decreases |s|
  {
    if |s| == 0 then []
    else
      MultisetSnoc(s);
      Insert(s[|s| - 1], SortByTimestamp(s[..|s| - 1]))
  }

  /** The multiset of a non-empty sequence is that of all but its last
      element, plus the last. */
  lemma MultisetSnoc(s: seq<Sample>)
    requires |s| > 0
    ensures multiset(s) == multiset(s[..|s| - 1]) + multiset{s[|s| - 1]}
  {
    assert s == s[..|s| - 1] + [s[|s| - 1]];
  }
}

=== FILE: tariff.dfy ===
/** The time-of-use part of `calculateAdvancedEstimation` and
    `recalculateHourlyPattern` in both scripts: the weekly temperature
    adjustment of the hourly profile clamped to [300, 1800] W, the split of
    each hour's energy into the valley, flat and peak bands of the regulated
    Spanish tariff (PVPC), and the electricity-tax and VAT chain. */
module Tariff {
  import opened Numeric
  import opened Pattern
  import opened Forecast
  import opened Projection

  /** The three PVPC time bands. */
  datatype Band = Valley | Flat | Peak

  /** The band of an hour: valley from 22:00 to 08:00, flat 08:00-10:00 and
      14:00-18:00, peak otherwise. */
  function BandOf(h: int): Band {
    if h >= 22 || h < 8 then Valley
    else if (h >= 8 && h < 10) || (h >= 14 && h < 18) then Flat
    else Peak
  }

  const ValleyHours: set<int> := {22, 23, 0, 1, 2, 3, 4, 5, 6, 7}
  const FlatHours: set<int> := {8, 9, 14, 15, 16, 17}
  const PeakHours: set<int> := {10, 11, 12, 13, 18, 19, 20, 21}

  /** Each hour of the day lies in exactly the band set `BandOf` names. */
  lemma BandSets(h: int)
    requires 0 <= h < 24
    ensures BandOf(h) == Valley <==> h in ValleyHours
    ensures BandOf(h) == Flat <==> h in FlatHours
    ensures BandOf(h) == Peak <==> h in PeakHours
  {
  }

  /** The number of hours from `h` to 23 that fall in band `b`. */
  function CountFrom(b: Band, h: nat): nat
    decreases 24 - h
  {
    if h >= 24 then 0 else (if BandOf(h) == b then 1 else 0) + CountFrom(b, h + 1)
  }

  /** The day has 10 valley, 6 flat and 8 peak hours. */
  lemma BandSizes()
    ensures CountFrom(Valley, 0) == 10 && CountFrom(Flat, 0) == 6 && CountFrom(Peak, 0) == 8
  {
    ValleyCount();
    FlatCount();
    PeakCount();
  }

  lemma ValleyCount()
    ensures CountFrom(Valley, 0) == 10
  {
    assert CountFrom(Valley, 18) == 2;
    assert CountFrom(Valley, 12) == 2;
    assert CountFrom(Valley, 6) == 4;
  }

  lemma FlatCount()
    ensures CountFrom(Flat, 0) == 6
  {
    assert CountFrom(Flat, 18) == 0;
    assert CountFrom(Flat, 12) == 4;
    assert CountFrom(Flat, 6) == 6;
  }

  lemma PeakCount()
    ensures CountFrom(Peak, 0) == 8
  {
    assert CountFrom(Peak, 18) == 4;
    assert CountFrom(Peak, 12) == 6;
    assert CountFrom(Peak, 6) == 8;
  }

  /** The forecast temperatures, day by day. */
  function AvgTemps(forecast: seq<ForecastDay>): (r: seq<real>)
    ensures |r| == |forecast|
    ensures forall i :: 0 <= i < |forecast| ==> r[i] == forecast[i].avgTemp
  {
    seq(|forecast|, i requires 0 <= i < |forecast| => forecast[i].avgTemp)
  }

  /** The week's mean temperature. Only reached with a non-empty forecast. */
  function WeekAverageTemp(forecast: seq<ForecastDay>): real
    requires |forecast| > 0
  {
    Mean(AvgTemps(forecast))
  }

  /** The week's mean lies within the days' range. */
  lemma WeekAverageWithin(forecast: seq<ForecastDay>, lo: real, hi: real)
    requires |forecast| > 0
    requires forall i :: 0 <= i < |forecast| ==> lo <= forecast[i].avgTemp <= hi
    ensures lo <= WeekAverageTemp(forecast) <= hi
  {
    MeanBounds(AvgTemps(forecast), lo, hi);
  }

  const MinHourPower: real := 300.0
  const MaxHourPower: real := 1800.0

  /** One recalculated hour: the base power times the temperature factor,
      clamped to [300, 1800] W. */
  function RecalculateHour(e: HourEntry, patternMaintenance: real, maintenancePower: real, tf: real)
    : (r: HourEntry)
    ensures r.hour == e.hour && MinHourPower <= r.power <= MaxHourPower
    ensures var x := HourBase(e, patternMaintenance, maintenancePower) * tf;
            (MinHourPower <= x <= MaxHourPower ==> r.power == x)
            && (x < MinHourPower ==> r.power == MinHourPower)
            && (x > MaxHourPower ==> r.power == MaxHourPower)
  {
    HourEntry(e.hour, Clamp(MinHourPower, MaxHourPower, HourBase(e, patternMaintenance, maintenancePower) * tf))
  }

  /** `recalculateHourlyPattern`: every hour recalculated with the week's
      temperature factor, in order. */
  function RecalculateHourlyPattern(p: ConsumptionPattern, s: Settings, forecast: seq<ForecastDay>)
    : (r: seq<HourEntry>)
    requires |forecast| > 0
    ensures |r| == |p.hourlyPattern|
    ensures forall i :: 0 <= i < |r| ==>
              r[i] == RecalculateHour(p.hourlyPattern[i], p.maintenancePower, s.maintenancePower,
                        TempFactor(s.targetTemp, WeekAverageTemp(forecast), s.consumptionFactor))
    ensures forall i :: 0 <= i < |r| ==>
              r[i].hour == p.hourlyPattern[i].hour && MinHourPower <= r[i].power <= MaxHourPower
  {
    var tf := TempFactor(s.targetTemp, WeekAverageTemp(forecast), s.consumptionFactor);
    var hp := p.hourlyPattern;
    seq(|hp|, i requires 0 <= i < |hp| =>
      RecalculateHour(hp[i], p.maintenancePower, s.maintenancePower, tf))
  }

  /** kWh accumulated per band. */
  datatype BandTotals = BandTotals(valley: real, flat: real, peak: real)

  const NoTotals: BandTotals := BandTotals(0.0, 0.0, 0.0)

  /** Adds `x` kWh to band `b`. */
  function AddTo(t: BandTotals, b: Band, x: real): BandTotals {
    match b
    case Valley => t.(valley := t.valley + x)
    case Flat => t.(flat := t.flat + x)
    case Peak => t.(peak := t.peak + x)
  }

  function Total(t: BandTotals): real {
    t.valley + t.flat + t.peak
  }

  /** Adding to a band adds to the total. */
  lemma AddToTotal(t: BandTotals, b: Band, x: real)
    ensures Total(AddTo(t, b, x)) == Total(t) + x
  {
  }

  function Plus(a: BandTotals, b: BandTotals): BandTotals {
    BandTotals(a.valley + b.valley, a.flat + b.flat, a.peak + b.peak)
  }

  function Scale(c: real, a: BandTotals): BandTotals {
    BandTotals(c * a.valley, c * a.flat, c * a.peak)
  }

  lemma ScaleAddTo(c: real, t: BandTotals, b: Band, x: real)
    ensures Scale(c, AddTo(t, b, x)) == AddTo(Scale(c, t), b, c * x)
  {
  }

  lemma PlusAddTo(a: BandTotals, t: BandTotals, b: Band, x: real)
    ensures Plus(a, AddTo(t, b, x)) == AddTo(Plus(a, t), b, x)
  {
  }

  lemma PlusScale(c: real, d: real, t: BandTotals)
    ensures Plus(Scale(c, t), Scale(d, t)) == Scale(c + d, t)
  {
  }

  /** One day's allocation: each hour's `power / 1000` kWh, times the day
      factor `df`, added to its band, in profile order. */
  function DayBands(hours: seq<HourEntry>, df: real): BandTotals
    decreases |hours|
  {
    if |hours| == 0 then NoTotals
    else
      var last := hours[|hours| - 1];
      AddTo(DayBands(hours[..|hours| - 1], df), BandOf(last.hour), last.power / 1000.0 * df)
  }

  /** The hours' kWh, as `power / 1000`. */
  function Kwhs(hours: seq<HourEntry>): (r: seq<real>)
    ensures |r| == |hours|
    ensures forall i :: 0 <= i < |hours| ==> r[i] == hours[i].power / 1000.0
  {
    seq(|hours|, i requires 0 <= i < |hours| => hours[i].power / 1000.0)
  }

  /** A day's allocation loses nothing: the bands add up to the day's kWh. */
  lemma {:induction false} DayBandsConserve(hours: seq<HourEntry>)
    ensures Total(DayBands(hours, 1.0)) == Sum(Kwhs(hours))
    decreases |hours|
  {
    if |hours| > 0 {
      DayBandsConserve(hours[..|hours| - 1]);
      TotalSnoc(hours);
      SumKwhsSnoc(hours);
    }
  }

  /** The last hour adds its kWh to the day's band total... */
  lemma TotalSnoc(hours: seq<HourEntry>)
    requires |hours| > 0
    ensures Total(DayBands(hours, 1.0))
         == Total(DayBands(hours[..|hours| - 1], 1.0)) + hours[|hours| - 1].power / 1000.0
  {
    DayBandsStep(hours, 1.0);
    AddToTotal(DayBands(hours[..|hours| - 1], 1.0), BandOf(hours[|hours| - 1].hour),
               hours[|hours| - 1].power / 1000.0 * 1.0);
  }

  /** ... and to the sum of the day's kWh. */
  lemma SumKwhsSnoc(hours: seq<HourEntry>)
    requires |hours| > 0
    ensures Sum(Kwhs(hours)) == Sum(Kwhs(hours[..|hours| - 1])) + hours[|hours| - 1].power / 1000.0
  {
    KwhsSnoc(hours);
    SumSnoc(Kwhs(hours[..|hours| - 1]), hours[|hours| - 1].power / 1000.0);
  }

  /** The allocation of a day is that of all but its last hour, with the
      last hour's weighted kWh added to its band. */
  lemma DayBandsStep(hours: seq<HourEntry>, df: real)
    requires |hours| > 0
    ensures DayBands(hours, df)
         == AddTo(DayBands(hours[..|hours| - 1], df), BandOf(hours[|hours| - 1].hour),
                  hours[|hours| - 1].power / 1000.0 * df)
  {
  }


  lemma KwhsSnoc(hours: seq<HourEntry>)
    requires |hours| > 0
    ensures Kwhs(hours) == Kwhs(hours[..|hours| - 1]) + [hours[|hours| - 1].power / 1000.0]
  {
    var n := |hours| - 1;
    var a, b := Kwhs(hours), Kwhs(hours[..n]) + [hours[n].power / 1000.0];
    forall i | 0 <= i < |a|
      ensures a[i] == b[i]
    {
      if i < n {
        assert hours[..n][i] == hours[i];
      }
    }
  }

  /** A day factor scales every band of the day's allocation. */
  lemma {:induction false} DayBandsScale(hours: seq<HourEntry>, df: real)
    ensures DayBands(hours, df) == Scale(df, DayBands(hours, 1.0))
    decreases |hours|
  {
    if |hours| > 0 {
      var n := |hours| - 1;
      DayBandsScale(hours[..n], df);
      var x := hours[n].power / 1000.0;
      var b := BandOf(hours[n].hour);
      var prev1 := DayBands(hours[..n], 1.0);
      assert DayBands(hours, df) == AddTo(DayBands(hours[..n], df), b, x * df);
      assert DayBands(hours, 1.0) == AddTo(prev1, b, x * 1.0);
      AddToScaled(df, prev1, b, x);
    } else {
      ScaleNone(df);
    }
  }

  lemma ScaleNone(c: real)
    ensures Scale(c, NoTotals) == NoTotals
  {
  }

  lemma AddToScaled(df: real, t: BandTotals, b: Band, x: real)
    ensures AddTo(Scale(df, t), b, x * df) == Scale(df, AddTo(t, b, x * 1.0))
  {
    ScaleAddTo(df, t, b, x * 1.0);
    assert x * df == df * (x * 1.0);
  }

  /** The day factors of the first `d` days of the week. */
  function FactorSum(d: nat): real
    decreases d
  {
    if d == 0 then 0.0 else FactorSum(d - 1) + DayFactor(d - 1)
  }

  /** Five weekdays in full and two weekend days at 85%. */
  const WeekWeight: real := 6.7

  lemma FactorSumWeek()
    ensures FactorSum(7) == WeekWeight
  {
  }

  /** Appending one hour to a day adds its weighted kWh to its band. */
  lemma DayBandsSnoc(hours: seq<HourEntry>, k: nat, df: real)
    requires k < |hours|
    ensures DayBands(hours[..k + 1], df)
         == AddTo(DayBands(hours[..k], df), BandOf(hours[k].hour), hours[k].power / 1000.0 * df)
  {
    assert hours[..k + 1][..k] == hours[..k];
  }

  /** The inner loop of estimador.js: one day's hours, each weighted by the
      day factor, added onto the running totals. */
  method AllocateDay(start: BandTotals, hours: seq<HourEntry>, df: real) returns (t: BandTotals)
    ensures t == Plus(start, DayBands(hours, df))
  {
    t := start;
    PlusNone(start);
    var k := 0;
    while k < |hours|
      invariant 0 <= k <= |hours|
      invariant t == Plus(start, DayBands(hours[..k], df))
    {
      var b := BandOf(hours[k].hour);
      var x := hours[k].power / 1000.0 * df;
      DayBandsSnoc(hours, k, df);
      PlusAddTo(start, DayBands(hours[..k], df), b, x);
      t := AddTo(t, b, x);
      k := k + 1;
    }
    assert hours[..k] == hours;
  }

  lemma PlusNone(a: BandTotals)
    ensures Plus(a, NoTotals) == a
  {
  }

  /** estimador.js's loop: for each of the seven days, every hour's kWh
      times that day's factor goes to its band, so each band receives 6.7
      times one unweighted day. */
  method AllocateByDays(hours: seq<HourEntry>) returns (t: BandTotals)
    ensures t == Scale(WeekWeight, DayBands(hours, 1.0))
  {
    t := NoTotals;
    ScaleZero(DayBands(hours, 1.0));
    var d := 0;
    while d < 7
      invariant 0 <= d <= 7
      invariant t == Scale(FactorSum(d), DayBands(hours, 1.0))
    {
      var df := DayFactor(d);
      t := AllocateDay(t, hours, df);
      DayBandsScale(hours, df);
      PlusScale(FactorSum(d), df, DayBands(hours, 1.0));
      d := d + 1;
    }
    FactorSumWeek();
  }

  lemma ScaleZero(a: BandTotals)
    ensures Scale(0.0, a) == NoTotals
  {
  }

  /** script.js's single pass: every hour's kWh goes to its band weighted
      for five weekdays at 1.0 and two weekend days at 0.85. */
  function AllocateByWeight(hours: seq<HourEntry>): BandTotals
    decreases |hours|
  {
    if |hours| == 0 then NoTotals
    else
      var last := hours[|hours| - 1];
      var kwh := last.power / 1000.0;
      AddTo(AllocateByWeight(hours[..|hours| - 1]), BandOf(last.hour),
            kwh * 5.0 * 1.0 + kwh * 2.0 * 0.85)
  }

  /** script.js's weights give each band 6.7 days of the hour's energy. */
  lemma {:induction false} AllocateByWeightScales(hours: seq<HourEntry>)
    ensures AllocateByWeight(hours) == Scale(WeekWeight, DayBands(hours, 1.0))
    decreases |hours|
  {
    if |hours| > 0 {
      var n := |hours| - 1;
      AllocateByWeightScales(hours[..n]);
      AllocateByWeightStep(hours);
      DayBandsStep(hours, 1.0);
      ScaleAddTo(WeekWeight, DayBands(hours[..n], 1.0), BandOf(hours[n].hour),
                 hours[n].power / 1000.0 * 1.0);
    } else {
      ScaleNone(WeekWeight);
    }
  }

  /** script.js's pass over a profile is its pass over all but the last
      hour, with the last hour's kWh added to its band 6.7 times. */
  lemma AllocateByWeightStep(hours: seq<HourEntry>)
    requires |hours| > 0
    ensures AllocateByWeight(hours)
         == AddTo(AllocateByWeight(hours[..|hours| - 1]), BandOf(hours[|hours| - 1].hour),
                  WeekWeight * (hours[|hours| - 1].power / 1000.0 * 1.0))
  {
    WeekWeighting(hours[|hours| - 1].power / 1000.0);
  }

  /** Five weekdays at 1.0 and two weekend days at 0.85 weigh 6.7 days. */
  lemma WeekWeighting(kwh: real)
    ensures kwh * 5.0 * 1.0 + kwh * 2.0 * 0.85 == WeekWeight * (kwh * 1.0)
  {
  }

  /** The two scripts' allocations agree band for band. */
  lemma AllocationsAgree(hours: seq<HourEntry>, t: BandTotals)
    requires t == Scale(WeekWeight, DayBands(hours, 1.0))
    ensures t == AllocateByWeight(hours)
    ensures Total(t) == WeekWeight * Sum(Kwhs(hours))
  {
    AllocateByWeightScales(hours);
    DayBandsConserve(hours);
  }

  /** For a profile of 24 clamped hours the week's band total lies between
      6.7 * 24 * 0.3 = 48.24 kWh and 6.7 * 24 * 1.8 = 289.44 kWh. */
  lemma WeekTotalBounds(hours: seq<HourEntry>)
    requires |hours| == 24
    requires forall i :: 0 <= i < 24 ==> MinHourPower <= hours[i].power <= MaxHourPower
    ensures 48.24 <= Total(AllocateByWeight(hours)) <= 289.44
  {
    AllocateByWeightScales(hours);
    DayBandsConserve(hours);
    var k := Kwhs(hours);
    SumBounds(k, 0.3, 1.8);
    assert 7.2 <= Sum(k) <= 43.2;
    assert Total(Scale(WeekWeight, DayBands(hours, 1.0))) == WeekWeight * Total(DayBands(hours, 1.0));
  }

  /** The band prices in euros per kWh. */
  datatype Prices = Prices(valley: real, flat: real, peak: real)

  /** The cost lines shown to the user. */
  datatype Cost = Cost(energy: real, electricTax: real, vat: real, total: real)

  const ElectricTaxRate: real := 0.051127
  const VatRate: real := 0.21

  /** Energy at the band prices, the electricity tax on it, VAT on both. */
  function CostOf(t: BandTotals, pr: Prices): (c: Cost)
    ensures c.energy == t.valley * pr.valley + t.flat * pr.flat + t.peak * pr.peak
    ensures c.electricTax == ElectricTaxRate * c.energy
    ensures c.vat == VatRate * (c.energy + c.electricTax)
    ensures c.total == c.energy + c.electricTax + c.vat
  {
    var energy := t.valley * pr.valley + t.flat * pr.flat + t.peak * pr.peak;
    var tax := energy * ElectricTaxRate;
    var subtotal := energy + tax;
    var vat := subtotal * VatRate;
    Cost(energy, tax, vat, subtotal + vat)
  }

  /** The total is the energy cost times 1.051127 * 1.21 = 1.27186367, so
      for non-negative energy and prices it is at least the energy cost,
      which is itself non-negative. */
  lemma CostChain(t: BandTotals, pr: Prices)
    ensures CostOf(t, pr).total == 1.27186367 * CostOf(t, pr).energy
    ensures t.valley >= 0.0 && t.flat >= 0.0 && t.peak >= 0.0
            && pr.valley >= 0.0 && pr.flat >= 0.0 && pr.peak >= 0.0
            ==> 0.0 <= CostOf(t, pr).energy <= CostOf(t, pr).total
  {
    var c := CostOf(t, pr);
    if t.valley >= 0.0 && t.flat >= 0.0 && t.peak >= 0.0
       && pr.valley >= 0.0 && pr.flat >= 0.0 && pr.peak >= 0.0 {
      MulMonotone(0.0, t.valley, pr.valley);
      MulMonotone(0.0, t.flat, pr.flat);
      MulMonotone(0.0, t.peak, pr.peak);
    }
  }

  /** More kWh in any band at non-negative prices never lowers the bill. */
  lemma CostMonotone(t1: BandTotals, t2: BandTotals, pr: Prices)
    requires pr.valley >= 0.0 && pr.flat >= 0.0 && pr.peak >= 0.0
    requires t1.valley <= t2.valley && t1.flat <= t2.flat && t1.peak <= t2.peak
    ensures CostOf(t1, pr).energy <= CostOf(t2, pr).energy
    ensures CostOf(t1, pr).total <= CostOf(t2, pr).total
  {
    MulMonotone(t1.valley, t2.valley, pr.valley);
    MulMonotone(t1.flat, t2.flat, pr.flat);
    MulMonotone(t1.peak, t2.peak, pr.peak);
    AddMonotone(t1.valley * pr.valley, t2.valley * pr.valley, t1.flat * pr.flat, t2.flat * pr.flat,
                t1.peak * pr.peak, t2.peak * pr.peak);
    CostChain(t1, pr);
    CostChain(t2, pr);
    MulMonotone(CostOf(t1, pr).energy, CostOf(t2, pr).energy, 1.27186367);
  }

  lemma AddMonotone(a1: real, a2: real, b1: real, b2: real, c1: real, c2: real)
    requires a1 <= a2 && b1 <= b2 && c1 <= c2
    ensures a1 + b1 + c1 <= a2 + b2 + c2
  {
  }
}

=== FILE: text.dfy ===
/** The JavaScript string operations the two parsers rely on, over Dafny
    strings (`seq<char>`): `trim`, `includes`, `replace` of a single
    character, `split`, `toLowerCase`, `parseInt` in base ten, and a decimal
    stand-in for `parseFloat`. */
module Text {
  import opened Wrappers

  /** The white-space and line-terminator code points `String.prototype.trim`
      removes. */
  predicate IsSpace(c: char) {
    var n := c as int;
    n == 9 || n == 10 || n == 11 || n == 12 || n == 13 || n == 32 || n == 0xA0
    || n == 0x1680 || (0x2000 <= n <= 0x200A) || n == 0x2028 || n == 0x2029
    || n == 0x202F || n == 0x205F || n == 0x3000 || n == 0xFEFF
  }

  /** Drops the leading white space. */
  function TrimStart(s: string): (r: string)
    ensures |r| <= |s| && r == s[|s| - |r|..]
    ensures |r| > 0 ==> !IsSpace(r[0])
    decreases |s|
  {
    if |s| > 0 && IsSpace(s[0]) then TrimStart(s[1..]) else s
  }

  /** Only white space is dropped from the front. */
  lemma {:induction false} TrimStartDropsSpace(s: string)
    ensures forall i :: 0 <= i < |s| - |TrimStart(s)| ==> IsSpace(s[i])
    decreases |s|
  {
    if |s| > 0 && IsSpace(s[0]) {
      TrimStartDropsSpace(s[1..]);
    }
  }

  /** Drops the trailing white space. */
  function TrimEnd(s: string): (r: string)
    ensures |r| <= |s| && r == s[..|r|]
    ensures forall i :: |r| <= i < |s| ==> IsSpace(s[i])
    ensures |r| > 0 ==> !IsSpace(r[|r| - 1])
    decreases |s|
  {
    if |s| > 0 && IsSpace(s[|s| - 1]) then TrimEnd(s[..|s| - 1]) else s
  }

  /** The length of the leading white space of `s`. */
  function LeadingSpace(s: string): (n: nat)
    ensures n <= |s|
  {
    |s| - |TrimStart(s)|
  }

  /** `String.prototype.trim`. */
  function Trim(s: string): (r: string)
    ensures |r| <= |s|
    ensures |r| == 0 || (!IsSpace(r[0]) && !IsSpace(r[|r| - 1]))
    ensures (|s| == 0 || (!IsSpace(s[0]) && !IsSpace(s[|s| - 1]))) ==> r == s
  {
    TrimEnd(TrimStart(s))
  }

  /** `trim` removes only the leading and trailing white space: its result
      is the slice of `s` that starts where the leading white space ends,
      and everything of `s` around that slice is white space. */
  lemma TrimIsSlice(s: string)
    ensures LeadingSpace(s) + |Trim(s)| <= |s|
    ensures Trim(s) == s[LeadingSpace(s)..LeadingSpace(s) + |Trim(s)|]
    ensures forall k :: 0 <= k < |s| && (k < LeadingSpace(s) || LeadingSpace(s) + |Trim(s)| <= k)
              ==> IsSpace(s[k])
  {
    TrimStartDropsSpace(s);
    SliceOfSuffix(s, TrimStart(s), Trim(s));
  }

  /** A prefix `r` of a suffix `t` of `s` is the slice of `s` at offset
      `|s| - |t|`; if the parts of `s` and `t` cut away are white space, so
      is everything of `s` around that slice. */
  lemma SliceOfSuffix(s: string, t: string, r: string)
    requires |t| <= |s| && t == s[|s| - |t|..]
    requires |r| <= |t| && r == t[..|r|]
    requires forall k :: 0 <= k < |s| - |t| ==> IsSpace(s[k])
    requires forall k :: |r| <= k < |t| ==> IsSpace(t[k])
    ensures |s| - |t| + |r| <= |s|
    ensures r == s[|s| - |t|..|s| - |t| + |r|]
    ensures forall k :: 0 <= k < |s| && (k < |s| - |t| || |s| - |t| + |r| <= k) ==> IsSpace(s[k])
  {
    var i := |s| - |t|;
    forall k | 0 <= k < |s| && i + |r| <= k
      ensures IsSpace(s[k])
    {
      assert s[k] == t[k - i];
    }
  }

  /** `t` occurs in `s` starting at position `i`. */
  predicate OccursAt(s: string, t: string, i: int) {
    0 <= i <= |s| - |t| && s[i..i + |t|] == t
  }

  /** `s.includes(t)`: `t` occurs in `s` at some position. */
  predicate Contains(s: string, t: string) {
    exists i | 0 <= i <= |s| - |t| :: OccursAt(s, t, i)
  }

  /** `s.indexOf(c)` for a single character: the first position of `c`. */
  function IndexOfChar(s: string, c: char): (r: Option<nat>)
    ensures r.None? <==> c !in s
    ensures r.Some? ==> r.value < |s| && s[r.value] == c && c !in s[..r.value]
    decreases |s|
  {
    if |s| == 0 then None
    else if s[0] == c then Some(0)
    else
      match IndexOfChar(s[1..], c)
      case None => None
      case Some(i) => Some(i + 1)
  }

  /** `s.replace(c, u)` with a one-character pattern: only the first
      occurrence of `c` is replaced. */
  function ReplaceFirst(s: string, c: char, u: string): (r: string)
    ensures c !in s ==> r == s
    ensures c in s ==> exists i :: 0 <= i < |s| && s[i] == c && c !in s[..i]
                                   && r == s[..i] + u + s[i + 1..]
  {
    match IndexOfChar(s, c)
    case None => s
    case Some(i) => s[..i] + u + s[i + 1..]
  }

  /** Replacing the first `c` when the text before it has none. */
  lemma ReplaceFirstAfter(a: string, b: string, c: char, u: string)
    requires c !in a
    ensures ReplaceFirst(a + [c] + b, c, u) == a + u + b
  {
    var s := a + [c] + b;
    assert s[|a|] == c && s[..|a|] == a && s[|a| + 1..] == b;
    assert c in s;
  }

  /** `s.split(c)` with a one-character separator. */
  function Split(s: string, c: char): (r: seq<string>)
    ensures |r| >= 1
    ensures forall k :: 0 <= k < |r| ==> c !in r[k]
    ensures Join(r, c) == s
    decreases |s|
  {
    match IndexOfChar(s, c)
    case None => [s]
    case Some(i) =>
      var rest := Split(s[i + 1..], c);
      assert ([s[..i]] + rest)[1..] == rest;
      assert s == s[..i] + [c] + s[i + 1..];
      [s[..i]] + rest
  }

  /** Splitting at the first separator, when the text before it has none. */
  lemma SplitCons(a: string, b: string, c: char)
    requires c !in a
    ensures Split(a + [c] + b, c) == [a] + Split(b, c)
  {
    var s := a + [c] + b;
    assert s[|a|] == c;
    assert s[..|a|] == a;
    assert s[|a| + 1..] == b;
  }

  /** Splitting two separator-free pieces joined by the separator. */
  lemma SplitTwo(a: string, b: string, c: char)
    requires c !in a && c !in b
    ensures Split(a + [c] + b, c) == [a, b]
  {
    SplitCons(a, b, c);
  }

  /** `parts.join(c)`: the pieces with `c` between consecutive ones. */
  function Join(parts: seq<string>, c: char): string
    decreases |parts|
  {
    if |parts| == 0 then ""
    else if |parts| == 1 then parts[0]
    else parts[0] + [c] + Join(parts[1..], c)
  }

  /** `Array.prototype.reverse` on a sequence of strings. */
  function Reverse(parts: seq<string>): (r: seq<string>)
    ensures |r| == |parts|
    ensures forall k :: 0 <= k < |parts| ==> r[k] == parts[|parts| - 1 - k]
    decreases |parts|
  {
    if |parts| == 0 then [] else Reverse(parts[1..]) + [parts[0]]
  }

  /** `toLowerCase` on one code point: ASCII and Latin-1 capitals move 32 places. */
  function LowerChar(c: char): char {
    var n := c as int;
    if 65 <= n <= 90 || (0xC0 <= n <= 0xDE && n != 0xD7) then (n + 32) as char else c
  }

  /** `String.prototype.toLowerCase`, limited to the ASCII and Latin-1 letters. */
  function ToLower(s: string): (r: string)
    ensures |r| == |s|
    ensures forall i :: 0 <= i < |s| ==> r[i] == LowerChar(s[i])
    decreases |s|
  {
    if |s| == 0 then "" else [LowerChar(s[0])] + ToLower(s[1..])
  }

  predicate IsDigit(c: char) { '0' <= c <= '9' }

  predicate AllDigits(d: string) { forall i :: 0 <= i < |d| ==> IsDigit(d[i]) }

  /** The length of the longest run of decimal digits at the start of `s`. */
  function DigitRun(s: string): (k: nat)
    ensures k <= |s| && AllDigits(s[..k])
    ensures k < |s| ==> !IsDigit(s[k])
    decreases |s|
  {
    if |s| > 0 && IsDigit(s[0]) then 1 + DigitRun(s[1..]) else 0
  }

  /** The value of a decimal digit; zero for any other character. */
  function DigitValue(c: char): (r: nat)
    ensures IsDigit(c) ==> r == c as int - '0' as int
  {
    if IsDigit(c) then c as int - '0' as int else 0
  }

  /** The value of a string of decimal digits, most significant first. It
      is only applied to runs of digits. */
  function DigitsValue(d: string): nat
    decreases |d|
  {
    if |d| == 0 then 0
    else DigitsValue(d[..|d| - 1]) * 10 + DigitValue(d[|d| - 1])
  }

  /** `10^k` as a real. */
  function Pow10(k: nat): (r: real)
    ensures r >= 1.0
  {
    if k == 0 then 1.0 else 10.0 * Pow10(k - 1)
  }

  /** Splits an optional leading sign off `s`: whether it was a minus, and the rest. */
  function SplitSign(s: string): (bool, string) {
    if |s| > 0 && s[0] == '-' then (true, s[1..])
    else if |s| > 0 && s[0] == '+' then (false, s[1..])
    else (false, s)
  }

  /** `parseInt(s)` in base ten: leading white space, an optional sign, then
      the longest run of digits; `None` stands for `NaN`, when no digit follows. */
  function ParseInt(s: string): (r: Option<int>)
    ensures r.Some? <==> StartsWithDigit(SplitSign(TrimStart(s)).1)
  {
    var sign := SplitSign(TrimStart(s));
    var rest := sign.1;
    var k := DigitRun(rest);
    if k == 0 then None
    else
      var v: int := DigitsValue(rest[..k]);
      Some(if sign.0 then -v else v)
  }

  predicate StartsWithDigit(s: string) { |s| > 0 && IsDigit(s[0]) }

  /** The digits of a run that is followed by a non-digit are exactly the run. */
  lemma {:induction false} DigitRunOfDigits(d: string, tail: string)
    requires AllDigits(d)
    requires |tail| == 0 || !IsDigit(tail[0])
    ensures DigitRun(d + tail) == |d|
    decreases |d|
  {
    if |d| > 0 {
      assert (d + tail)[1..] == d[1..] + tail;
      DigitRunOfDigits(d[1..], tail);
    } else {
      assert d + tail == tail;
    }
  }

  /** Whether `s` starts, after white space and a sign, with a decimal number:
      a digit, or a point followed by a digit. */
  predicate HasNumericPrefix(s: string) {
    var rest := SplitSign(TrimStart(s)).1;
    StartsWithDigit(rest) || (|rest| > 1 && rest[0] == '.' && IsDigit(rest[1]))
  }

  /** A stand-in for `parseFloat(s)`: leading white space, an optional sign,
      integer digits and an optional fraction after a point; the longest such
      prefix is read and the rest ignored. `None` stands for `NaN`. */
  function ParseDecimal(s: string): (r: Option<real>)
    ensures r.Some? <==> HasNumericPrefix(s)
  {
    var sign := SplitSign(TrimStart(s));
    var rest := sign.1;
    var k := DigitRun(rest);
    var after := rest[k..];
    var f := if |after| > 0 && after[0] == '.' then DigitRun(after[1..]) else 0;
    var frac := if f > 0 then after[1..][..f] else "";
    if k == 0 && f == 0 then None
    else
      var v := DecimalValue(rest[..k], frac);
      Some(if sign.0 then -v else v)
  }

  /** The number spelled by integer digits `d` and fraction digits `f`. */
  function DecimalValue(d: string, f: string): real {
    DigitsValue(d) as real + DigitsValue(f) as real / Pow10(|f|)
  }

  /** `parseFloat` of `d.f`, for non-empty runs of digits `d` and `f`, is
      the decimal number they spell. */
  lemma DecimalParse(d: string, f: string)
    requires |d| > 0 && AllDigits(d) && |f| > 0 && AllDigits(f)
    ensures ParseDecimal(d + "." + f) == Some(DecimalValue(d, f))
  {
    var s := d + "." + f;
    assert !IsSpace(s[0]) && s[0] != '-' && s[0] != '+';
    assert TrimStart(s) == s;
    assert SplitSign(s) == (false, s);
    assert s == d + ("." + f);
    DigitRunOfDigits(d, "." + f);
    var k := DigitRun(s);
    assert k == |d| && s[..k] == d;
    var after := s[k..];
    assert after == "." + f && after[1..] == f;
    DigitRunOfDigits(f, "");
    assert f + "" == f;
    assert after[1..][..|f|] == f;
  }
}

=== FILE: wrappers.dfy ===
/** The `Option` type used wherever the modelled code produces `NaN`,
    `undefined` or an invalid `Date`. */
module Wrappers {

  datatype Option<+T> = None | Some(value: T) {

    /** `x || d` for a possibly missing number: the number, else the fallback `d`. */
    function GetOr(default: T): T {
      match this
      case Some(v) => v
      case None => default
    }

    /** The zero- or one-element sequence holding the value, if any. */
    function ToSeq(): (r: seq<T>)
      ensures |r| == (if Some? then 1 else 0)
      ensures Some? ==> r[0] == value
    {
      match this
      case Some(v) => [v]
      case None => []
    }
  }
}
